=== FILE: README.md ===
# radar: the radar-generation engine in Dafny

This project models the core of parkr/radar, the service that keeps a daily
"radar" issue of saved links in a GitHub repository. The model covers four
parts.

- **Checklist parsing** (`parser.go`). `parseMarkdownLink` splits
  `[title](url)` at the first `[`, the last `](` and the last `)`.
  `extractLinkedTodosFromMarkdown` walks the list lines of a body's version
  sections. It drops checked-off lines, cuts the `[ ] ` marker and keeps
  every line whose URL is non-empty. The module also covers
  `RadarItem.GetTitle`, `isBinaryResource` and the host-name branch of
  `isPrivateHost`.
- **Item ordering** (`radar_item.go`). A `RadarItem` is a class. Its URL
  memo is a field that `GetHostname` fills in on first use. `RadarItems` is
  an array that `Swap` and `Less` work on in place. `sort.Stable` is the
  in-place insertion sort Go runs on short slices. It is proved equal to a
  functional stable sort, and that sort is proved sorted, a permutation and
  order-preserving among equal host names.
- **Body rendering** (`generateBody` and its template in `github.go`). The
  template's output is written out as text. Nothing to show gives the canned
  message. Otherwise the body is the header, the link to the previous issue,
  one `- [ ] [title](url)` line per item, the optional `New:` section and
  the optional mention. The rendered lines parse back to the items when
  every URL is non-empty and free of `](`, with the titles filled in. Every
  link read from an issue meets that condition, so the carried-over links
  always read back (`GitHub.CarriedOverParseBack`).
- **Rotation** (`github.go`). GitHub is a `Server` value that says how it
  answers each request. A `GitHubClient` object records every request it
  sends in a `calls` field. `extractGitHubLinks` reads the previous issue's
  body, then its comments page by page. `GenerateRadarIssue` creates the
  new issue before it closes the old one. `NewGitHubClient` is a per-token
  memo map held in a `Clients` object.

A slice expression that Go evaluates out of range panics. A panic is never
recovered in this code, so the model carries it as the `Panic` outcome
(`Wrappers.Outcome`), and the rotation then ends in `Crashed`.

Where the files disagree with one another, the model follows the code as
written.
- `extractLinkedTodosFromMarkdown` returns an error next to its items, but
  `extractGitHubLinks` uses the result as a single value. The model's
  extraction returns only the items. The error can only come from the
  markdown library, which is an input here.
- `GenerateRadarIssue` puts every carried-over link into `OldIssues` and
  leaves `NewIssues` empty. The expected body in `github_test.go` uses a
  different layout (`## New:`, `  * [ ] `). The model renders the template
  in `github.go:20-30`.
- A failed request for a page of comments ends the comment loop and keeps
  the links gathered so far (`github.go:133-137`). The rotation then goes
  on: the new issue is created and the old one closed, and the links on
  the pages not read are not carried over
  (`GitHub.CommentFailureStillRotates`).
- An open list line whose summary is shorter than the `[ ] ` marker (the
  line `- hi`, say) is not logged and skipped. `parser.go:156` cuts the
  marker without a length check, so Go panics there, and the whole
  rotation stops before anything is written
  (`GitHub.ShortOpenLineCrashes`).

## Model

| member | source | states |
|---|---|---|
| Parser.GetTitle | parser.go:21-26 | A non-empty stored title is returned unchanged; an empty stored title gives the title fetched for the URL; an empty result means both the stored and the fetched title are empty |
| Parser.GetTitleSettles | parser.go:21-26 | Storing the title GetTitle returned and asking again gives the same title |
| Parser.ParseMarkdownLink | parser.go:167-175 | Without a `)`, a `](` or a `[` the result is ("", ""); a result never holds more characters than the input |
| Parser.ParseIndexes | parser.go:168-174 | A non-empty URL comes from the first `[`, the last `](` and the last `)`, in that order, and the title and URL are the text between them |
| Parser.ParseOfSplit | parser.go:167-175 | Every string that reads pre + `[` + title + `](` + url + `)` + post, with no `[` in pre, no `](` after the boundary and no `)` in post, parses to (title, url) |
| Parser.SplitOfParse | parser.go:167-175 | Conversely, every non-empty URL the parser returns comes from such a split |
| Parser.ParseRoundTrip | parser.go:167-175 | Writing any title and any URL free of `](` as `[title](url)` and parsing gives them back, brackets and parentheses included |
| Parser.ParsedUrlNoBoundary | parser.go:167-175 | A URL the parser returns never holds `](`, since it starts after the last one |
| Parser.ParseParenthesesExample | parser_test.go:124-128 | The Metroid Fusion test link, whose title and URL both hold parentheses, parses to exactly the test's title and URL (the URL literal is written in pieces) |
| Parser.ParseQueryExample | parser_test.go:104-108 | The Ankify test link, whose URL holds a query string, parses to the test's title and URL |
| Parser.ParseFragmentExample | parser_test.go:109-113 | The Cotton Bureau test link, whose title holds curly quotes, parentheses and a "\|", parses to the test's title and URL |
| Parser.ParseConcertExample | parser_test.go:114-118 | The Tiny Desk test link, whose title holds parentheses, parses to the test's title and URL |
| Parser.ParseThreadExample | parser_test.go:119-123 | The Twitter-thread test link, whose title ends in a parenthesis, parses to the test's title and URL |
| Parser.ParsePanicExample | parser.go:174 | A `](` before the first `[` makes the slice expression out of range: Panic |
| Parser.TodoOfLine | parser.go:151-161 | A checked-off line gives no link; an open line shorter than four characters panics; an open longer line panics exactly when its link does, and gives that link when its URL is non-empty; any link given has a non-empty URL free of `](` |
| Parser.TodosOfLines | parser.go:149-164 | The links of a run of lines number at most the lines and all have non-empty URLs free of `](` |
| Parser.TodosOfLinesAppend | parser.go:149-164 | The links of two runs of lines are the first run's links followed by the second's, and a panic in either is a panic of both |
| Parser.CheckedLineIgnored | parser.go:151-154 | Removing a checked-off line anywhere changes nothing |
| Parser.TodosComeFromLines | parser.go:151-161 | Every link produced comes from an open line of at least four characters |
| Parser.OpenLineKept | parser.go:151-161 | Conversely, every open line of at least four characters whose link has a non-empty URL contributes that link, unless the run panics |
| Parser.PanicInFirstSections | parser.go:149-150 | A panic in the first sections is a panic of the whole body |
| Parser.FlattenAppend | parser.go:149-150 | The lines of two runs of sections are those of the first run followed by those of the second |
| Parser.TodosOfBody | parser.go:143-165 | Reference definition: the links of all list lines of all version sections, in document order |
| Parser.ExtractLinkedTodosFromMarkdown | parser.go:143-165 | The loop over sections and lines panics exactly when the line-by-line specification does; otherwise its items' values are that specification's links, in order, all freshly made with an empty URL memo |
| Parser.AppendLinkedTodos | parser.go:150-162 | The inner loop appends the links of one section's lines to the items gathered so far |
| Parser.AppendTodoOfLine | parser.go:151-161 | One line appends its link, or nothing, to the items |
| Parser.Ext | parser.go:138 | path.Ext: "" exactly when the last path element has no `.`; otherwise a suffix of the path that starts with its only `.` and holds no `/` |
| Parser.BinaryResource | parser.go:128-141 | Reference definition of the decision isBinaryResource makes |
| Parser.IsBinaryResource | parser.go:128-141 | With a content type, the page is binary exactly when the type names none of text/html, text/xhtml and text/xml; without one, exactly when the path's extension is not "", .html, .xhtml or .htm |
| Parser.PdfIsBinary | parser_test.go:143 | /hi.pdf without a content type is binary |
| Parser.HtmlIsNotBinary | parser_test.go:144 | /hi.html without a content type is not binary |
| Parser.BinaryByContentTypeExamples | parser_test.go:145-146 | text/html is not binary and text/plain is |
| Parser.IsPrivateHost | parser.go:211-218 | An IP address is private exactly when its range is private; any other host name is private exactly when it is "localhost" or some name followed by ".local" or ".localhost" |
| Parser.PrivateNameSubdomain | parser.go:217 | Every name under a private host name that is not an IP address is private too |
| Parser.PrivateNameExamples | parser.go:211-218 | With a classifier that knows none of these names as an IP address, "localhost" and "printer.local" are private and "local" and "localhost.example.com" are not; the test's addresses 127.0.0.1 and 129.129.129.129 are private and public as the address classifier says |
| RadarItems.Hostname | radar_item.go:33-44 | Reference definition: the parsed URL's host name, or "" when the URL does not parse |
| RadarItems.RadarItem.GetHostname | radar_item.go:33-44 | A set memo answers and stays; an empty memo is filled with the parse result, so a URL that fails to parse gives "" and is parsed again next time; a valid memo keeps the answer equal to the host name of the URL |
| RadarItems.Swap | radar_item.go:52-54 | Positions i and j are exchanged and nothing else changes, so the multiset of items is kept |
| RadarItems.Less | radar_item.go:56-58 | Item i is less exactly when its host name sorts strictly before item j's; both items' URL memos end as the parse of their URL (an empty memo is filled in, a set one kept) and every memo stays valid |
| Strings.StrLessIrreflexive | radar_item.go:56-58 | No host name sorts strictly before itself |
| Strings.StrLessTransitive | radar_item.go:56-58 | Sorting strictly before is transitive |
| Strings.StrLessTrichotomy | radar_item.go:56-58 | Two host names are equal or one sorts strictly before the other |
| RadarItems.SortStable | github.go:56-57 | sort.Stable on a RadarItems array leaves exactly the stable sort of the old contents by host name, and the URL memos valid |
| RadarItems.SinkItem | radar_item.go:52-58 | One pass of the insertion step keeps the multiset and the relative order of equal host names, extends the sorted prefix by one and leaves every position after i unchanged |
| RadarItems.SinkOnce | radar_item.go:52-58 | Swaps exactly when item j's host name sorts strictly before item j-1's; the new array is the old one with j-1 and j exchanged, or the old one unchanged |
| RadarItems.SortedLinks | github.go:56-57 | Sorting the items and then taking their values is sorting the values |
| Sorting.StableSortSorted | github.go:56-57 | The stable sort's result has non-decreasing keys |
| Sorting.StableSortPermutes | github.go:56-57 | The stable sort's result is a permutation of its input |
| Sorting.StableSortStable | github.go:56-57 | The items with any one key keep their input order |
| Sorting.SortedStableUnique | github.go:56-57 | Two sorted sequences with the same items per key, in the same order, are equal: every stable sort gives the same result |
| Body.RenderTemplate | github.go:20-30 | Reference definition: the text the template writes, line by line |
| Body.GenerateBody | github.go:112-120 | The body is the canned message exactly when there are no new and no old items; otherwise it starts with the header |
| Body.Checklist | github.go:23-24 | The checklist is empty exactly when there are no items |
| Body.ChecklistAppend | github.go:23-24 | The checklist of two runs of items is the first run's lines followed by the second's |
| Body.ChecklistSingle | github.go:23-24 | One item gives exactly the line `- [ ] [title](url)` and a line break |
| Body.Previously | github.go:21 | The link to the previous issue is present exactly when there is a previous issue URL, and then it ends with that URL in parentheses |
| Body.NewSection | github.go:25-28 | The New: section is present exactly when there are new items, and starts with `New:` and a blank line |
| Body.CcLine | github.go:29 | The /cc line is present exactly when there is someone to mention, and ends with the mention |
| Body.PreviouslyShown | github.go:20-21 | A body with items starts with the header and then the previous-issue line |
| Body.MentionShown | github.go:29-30 | A body with items ends with the mention line and a line break |
| Body.EntriesParseBack | github.go:23-24 | The rendered lines of items with URLs free of `](` parse back to the same items, titles filled in, in order |
| Body.EntryParsesBack | github.go:23-24 | One rendered line parses back to its item |
| GitHub.GitHubClient.SearchIssues | github.go:94 | The answer is the server's, and the search is recorded as the last request |
| GitHub.GitHubClient.ListIssueComments | github.go:133 | The answer is the server's page, and the request is recorded |
| GitHub.GitHubClient.CreateIssue | github.go:65-69 | The answer is the server's, and the create is recorded |
| GitHub.GitHubClient.EditIssue | github.go:76-78 | The answer is the server's, and the close is recorded |
| GitHub.Clients.NewGitHubClient | github.go:153-164 | Afterwards the token is a key; a known token gives its client and leaves the map alone; a new token gets a fresh client and the map changes at that key only |
| GitHub.PreviousIssueQuery | github.go:88 | Reference definition: the search for the repository's open issues labelled radar |
| GitHub.FirstHit | github.go:94-105 | There is a previous issue exactly when the search worked and found something, and it is the first hit |
| GitHub.GetPreviousRadarIssue | github.go:87-106 | One search for the repository's open radar issues, and its first hit or none |
| GitHub.CommentLinks | github.go:139-141 | The links of a run of comments all have non-empty URLs free of `](` |
| GitHub.CommentPages | github.go:132-147 | The pages asked for start with the given page, and every link gathered has a non-empty URL free of `](` |
| GitHub.GitHubLinks | github.go:122-150 | The issue's own links are a prefix of the result, every link has a non-empty URL free of `](`, and a panic on the issue's own links means no page is asked for |
| GitHub.CommentCalls | github.go:133 | Reference definition of the comment requests: one list-comments request per page, in page order |
| GitHub.PagesIncrease | github.go:143-146 | A consequence of the assumed server behaviour (`Server.PagesAdvance`), not of the loop: pages are asked for in strictly increasing order, from the first page up to the last |
| GitHub.PagesFollowNextPage | github.go:132-147 | Each page after the first is the previous answer's NextPage; the loop stops at an error, at a panic, or at NextPage 0 |
| GitHub.FirstPageFailure | github.go:133-137 | When the first page cannot be fetched, the issue's own links are all there is |
| GitHub.CommentPanicInPrefix | github.go:139-141 | A panic on one of the first comments is a panic of the whole page |
| GitHub.CommentPagesStep | github.go:133-146 | One turn of the loop as values: an error keeps what was gathered, a panic ends everything, NextPage 0 ends after this page, any other NextPage continues there |
| GitHub.AppendCommentTodos | github.go:139-141 | The loop over one page's comments appends their links, comment by comment, to the items, or panics exactly when they do |
| GitHub.AppendNextComment | github.go:140 | One comment's links extend the links gathered so far |
| GitHub.AppendBodyTodos | github.go:140 | The items of one comment are appended to the items |
| GitHub.ExtractGitHubLinks | github.go:122-150 | The loop's items are exactly the body's links followed by the comments' links, in page order, and it sends exactly one list-comments request per page the specification visits |
| GitHub.ReadCommentPage | github.go:133-146 | One request for the page; what it adds and which page comes next agree with the specification |
| GitHub.ReadCalls | github.go:50-53 | The requests before anything is written start with the search and only read |
| GitHub.CreateAndClose | github.go:65-82 | The first request after the body is ready is the create with the radar label, and it never panics |
| GitHub.RadarTitle | github.go:108-110 | Reference definition: "Radar for " followed by the day |
| GitHub.Rotate | github.go:39-85 | Reference definition of the rotation as a value: the search, the comment pages of the previous issue, then (unless reading panicked) the create with the rendered body and, after a successful create, the close |
| GitHub.GenerateRadarIssue | github.go:39-85 | The result and the exact sequence of requests are those of `Rotate` |
| GitHub.FetchOldItems | github.go:50-54 | The carried-over items are the previous issue's links, or none without a previous issue, read with one request per comment page |
| GitHub.RenderRadarBody | github.go:43-59 | Sorting both lists in place and rendering gives the body of the carried-over links ordered by host name |
| GitHub.CreateAndCloseIssue | github.go:65-82 | The create, then the close only if the create worked and there is a previous issue |
| GitHub.CloseOnlyAfterCreate | github.go:65-82 | The previous issue is closed exactly when it exists and the create worked; the close is the last request, right after the create; a failed create is the last request |
| GitHub.CrashCreatesNothing | github.go:50-57 | The rotation crashes exactly when reading the previous issue panics, and then it has sent only reads |
| GitHub.ShortOpenLineCrashes | parser.go:151-157 | An open list line shorter than four characters in the previous issue makes the rotation crash, having sent only reads |
| GitHub.NoPreviousIssue | github.go:50-54 | Without a previous issue the search is followed directly by the create of the canned "nothing to do" body |
| GitHub.CarriedOverOrdered | github.go:52-57 | The new body links back to the previous issue, has no new items, and lists every carried-over link once, sorted by host name and stable among equal host names |
| GitHub.CarriedOverParseBack | github.go:52-57 | Whenever the previous issue's links are read without a panic, the list lines of the new body parse back to the carried-over links in the order listed, titles filled in |
| GitHub.CreateAfterReads | github.go:59-69 | Unless reading panics, the create comes right after the reads and sends the body made from the carried-over links |
| GitHub.CommentFailureStillRotates | github.go:133-137 | When the first comment page cannot be read, the rotation still creates the new issue (and then closes the old one) from the body's own links alone |
| GitHub.CloseFailureIgnored | github.go:74-84 | Whether the close works changes neither the result nor the requests |
| Wrappers.ThenAssociative | github.go:125-141 | Gathering links in stages does not depend on how the stages are grouped |

## Left out

- `titleForWebpage` and `titleForGitHubReference` fetch a page or ask the GitHub API. They are the `TitleResolver` parameter of `GetTitle`.
- `isPrivateIP`, `net.ParseIP` and the CIDR table are the `IpClassifier` parameter of `IsPrivateHost`, because they depend on the IP library.
- The `changelog` markdown library is the `ChangelogReader` parameter. It gives the summaries of the list lines of each version section. Its parse error is not modelled, so the error return of `extractLinkedTodosFromMarkdown` is always nil and is left out.
- `url.Parse` and `URL.Hostname` are the `UrlParser` parameter. A parse error is `None`.
- `text/template` is not modelled as an engine. The text the template produces is written out.
- Body.GenerateBody: has no error result. In Go, executing the template can fail. `{{.GetTitle}}` reaches `titleForWebpage`, and a panic there (for example, `titleForGitHubReference` dereferencing the nil description of a repository that has none) is turned by `text/template` into an error from `generateBody`. `GenerateRadarIssue` then returns that error before the create, so nothing is created or closed. The model takes the title lookup as total, so this abort path is not modelled.
- `getTitle` reads the clock. The day is a parameter of `RadarTitle`.
- The 60-second context timeout, the logging calls and the search and list options (sort order, page size 100) are left out. The order and the paging of the answers are the server's behaviour.
- The SQL methods of `RadarItemsService` (`List`, `Get`, `Create`, `Delete`, `Shutdown`) are database I/O.
- HTTP, MQTT and mail plumbing, the channel consumers and the scheduler are not part of this model.
- `RadarItems.Len` is the array's `Length` and has no member of its own.
- RadarItems.SortStable: models Go's insertion sort, which `sort.Stable` uses on up to 20 items. The block-and-merge path for longer slices is not modelled. `Sorting.SortedStableUnique` shows that any stable sort gives the same result.
- In Go, a `RadarItems` slice holds item values, and `Swap` moves them together with their URL memos. The model holds references to item objects. Swapping references moves the same data, but aliasing between a slice and its backing array is not modelled.
- Strings are sequences of characters. Go compares and slices UTF-8 bytes, so on non-ASCII text the model's positions are character positions rather than byte offsets. Cuts at the indexes that `strings.Index` and `strings.LastIndex` return give the same substrings either way, because the markers are ASCII.
- Parser.TodoOfLine: cuts the four characters of the `[ ] ` marker, where Go cuts four bytes. The two differ when a multi-byte character falls within the first four bytes of an open line's summary. Such a summary is cut at a different place. A summary of fewer than four characters but at least four bytes, such as `[ é`, panics in the model, but in Go gives an empty link text and the line is skipped.
- GitHub.CommentPages: assumes, through `Server.PagesAdvance`, that every non-zero NextPage lies after the page it came with and no later than a last page. Go loops forever on a server that violates this.
- GitHub.GenerateRadarIssue: loops whose bodies are long are split into helper methods (`ReadCommentPage`, `AppendNextComment`, `AppendBodyTodos`, `AppendTodoOfLine`). Each helper is one turn of the Go loop.

=== FILE: body.dfy ===
/** The body of a new radar issue (generateBody and its template in
    github.go): a canned message when there is nothing to show, otherwise a
    header, a link to the previous issue, one checklist line per item and a
    mention. The template is written out as the text it produces. */
module Body {
  import opened Wrappers
  import opened Strings
  import opened RadarItems
  import opened Parser

  const NothingToDo: string := "Nothing to do today. Nice work! :sparkles:"
  const BodyHeader: string := "A new day! Here's what you have saved:\n"

  /** tmplData: the previous issue's URL, the new and the carried-over
      items, and who to mention. */
  datatype TmplData = TmplData(oldIssueURL: string, newIssues: seq<Link>, oldIssues: seq<Link>, mention: string)

  /** The summary of one checklist line: an open box and the item's link. */
  function EntrySummary(link: Link, resolve: TitleResolver): string {
    "[ ] [" + GetTitle(link, resolve) + "](" + link.url + ")"
  }

  /** The list line of one item. */
  function ChecklistLine(link: Link, resolve: TitleResolver): string {
    "- " + EntrySummary(link, resolve) + "\n"
  }

  /** The checklist lines of `links`, one per item, in order. */
  function Checklist(links: seq<Link>, resolve: TitleResolver): (text: string)
    ensures links == [] <==> text == ""
  {
    if links == [] then ""
    else Checklist(links[..|links| - 1], resolve) + ChecklistLine(links[|links| - 1], resolve)
  }

  /** `{{with .OldIssueURL}}[*Previously:*]({{.}}){{end}}`: a link to the
      previous issue, present exactly when there is one. */
  function Previously(url: string): (text: string)
    ensures text == "" <==> url == ""
    ensures url != "" ==> HasSuffix(text, "(" + url + ")")
  {
    if url != "" then "[*Previously:*](" + url + ")" else ""
  }

  /** `{{with .NewIssues}}New:` followed by its checklist: present exactly
      when there are new items. */
  function NewSection(links: seq<Link>, resolve: TitleResolver): (text: string)
    ensures text == "" <==> links == []
    ensures links != [] ==> HasPrefix(text, "New:\n\n")
  {
    if links != [] then "New:\n\n" + Checklist(links, resolve) else ""
  }

  /** `{{with .Mention}}/cc {{.}}{{end}}`: present exactly when there is
      someone to mention. */
  function CcLine(mention: string): (text: string)
    ensures text == "" <==> mention == ""
    ensures mention != "" ==> HasSuffix(text, mention)
  {
    if mention != "" then "/cc " + mention else ""
  }

  /** What bodyTmpl writes for `data`. */
  function RenderTemplate(data: TmplData, resolve: TitleResolver): string {
    "\n" + Previously(data.oldIssueURL) + "\n\n" + Checklist(data.oldIssues, resolve) + "\n"
    + NewSection(data.newIssues, resolve) + "\n" + CcLine(data.mention) + "\n"
  }

  /** generateBody. Executing the template can fail: a panic inside a
      `{{.GetTitle}}` call comes back from Execute as an error. The model
      takes the title resolver to be total, so that error result is left
      out. */
  function GenerateBody(data: TmplData, resolve: TitleResolver): (body: string)
    ensures body == NothingToDo <==> data.newIssues == [] && data.oldIssues == []
    ensures body != NothingToDo ==> HasPrefix(body, BodyHeader)
  {
    if |data.newIssues| == 0 && |data.oldIssues| == 0 then NothingToDo
    else
      var body := BodyHeader + RenderTemplate(data, resolve);
      assert body[..|BodyHeader|] == BodyHeader;
      assert body[0] == 'A' && NothingToDo[0] == 'N';
      body
  }

  /** The checklist of two runs of items is the checklist of the first run
      followed by that of the second. */
  lemma {:induction false} ChecklistAppend(a: seq<Link>, b: seq<Link>, resolve: TitleResolver)
    ensures Checklist(a + b, resolve) == Checklist(a, resolve) + Checklist(b, resolve)
  {
    if b == [] {
      assert a + b == a;
    } else {
      var front, last := b[..|b| - 1], b[|b| - 1];
      assert a + b == (a + front) + [last];
      assert b == front + [last];
      ChecklistSnoc(a + front, last, resolve);
      ChecklistSnoc(front, last, resolve);
      ChecklistAppend(a, front, resolve);
      AppendAssociative(Checklist(a, resolve), Checklist(front, resolve), ChecklistLine(last, resolve));
    }
  }

  lemma ChecklistSnoc(links: seq<Link>, link: Link, resolve: TitleResolver)
    ensures Checklist(links + [link], resolve) == Checklist(links, resolve) + ChecklistLine(link, resolve)
  {
    assert (links + [link])[..|links|] == links;
  }

  /** One item gives exactly one line. */
  lemma ChecklistSingle(link: Link, resolve: TitleResolver)
    ensures Checklist([link], resolve) == "- " + EntrySummary(link, resolve) + "\n"
  {
    assert [link][..0] == [];
    assert "" + ChecklistLine(link, resolve) == ChecklistLine(link, resolve);
  }

  /** The item as the next radar will read it back: with the title the body
      showed. */
  function Resolved(link: Link, resolve: TitleResolver): Link {
    Link(GetTitle(link, resolve), link.url)
  }

  /** The summaries of the rendered checklist lines of `links`. */
  function Summaries(links: seq<Link>, resolve: TitleResolver): (lines: seq<string>)
    ensures |lines| == |links| && forall i :: 0 <= i < |links| ==> lines[i] == EntrySummary(links[i], resolve)
  {
    seq(|links|, i requires 0 <= i < |links| => EntrySummary(links[i], resolve))
  }

  function ResolvedAll(links: seq<Link>, resolve: TitleResolver): (r: seq<Link>)
    ensures |r| == |links| && forall i :: 0 <= i < |links| ==> r[i] == Resolved(links[i], resolve)
  {
    seq(|links|, i requires 0 <= i < |links| => Resolved(links[i], resolve))
  }

  /** The summaries of the rendered checklist lines parse back to the items,
      with their titles filled in, in order: the next day's radar reads back
      what this one wrote. */
  lemma {:induction false} EntriesParseBack(links: seq<Link>, resolve: TitleResolver)
    requires forall l <- links :: l.url != "" && !Contains(l.url, "](")
    ensures TodosOfLines(Summaries(links, resolve)) == Done(ResolvedAll(links, resolve))
  {
    if links != [] {
      var front, last := links[..|links| - 1], links[|links| - 1];
      assert Summaries(links, resolve) == Summaries(front, resolve) + [EntrySummary(last, resolve)];
      assert ResolvedAll(links, resolve) == ResolvedAll(front, resolve) + [Resolved(last, resolve)];
      EntriesParseBack(front, resolve);
      TodosOfLinesSnoc(Summaries(front, resolve), EntrySummary(last, resolve));
      EntryParsesBack(last, resolve);
    }
  }

  /** One rendered line parses back to its item. */
  lemma EntryParsesBack(link: Link, resolve: TitleResolver)
    requires link.url != "" && !Contains(link.url, "](")
    ensures TodoOfLine(EntrySummary(link, resolve)) == Done([Resolved(link, resolve)])
  {
    var title := GetTitle(link, resolve);
    var line := EntrySummary(link, resolve);
    assert line == "[ ] " + ("[" + title + "](" + link.url + ")");
    assert !IsChecked(line) by {
      assert line[1] == ' ';
    }
    assert line[OpenMarkerLength..] == "[" + title + "](" + link.url + ")";
    ParseRoundTrip(title, link.url);
  }

  /** The body starts with the header, then the link to the previous issue
      (empty when there is none) on a line of its own. */
  lemma PreviouslyShown(data: TmplData, resolve: TitleResolver)
    requires data.newIssues != [] || data.oldIssues != []
    ensures HasPrefix(GenerateBody(data, resolve), BodyHeader + ("\n" + Previously(data.oldIssueURL) + "\n\n"))
  {
    var head := "\n" + Previously(data.oldIssueURL) + "\n\n";
    var c, n := Checklist(data.oldIssues, resolve), NewSection(data.newIssues, resolve);
    var cc := CcLine(data.mention);
    assert HasPrefix(head, head);
    PrefixGrows(head, head, c, "");
    PrefixGrows(head + c, head, "\n", "");
    PrefixGrows(head + c + "\n", head, n, "");
    PrefixGrows(head + c + "\n" + n, head, "\n", "");
    PrefixGrows(head + c + "\n" + n + "\n", head, cc, "");
    PrefixGrows(head + c + "\n" + n + "\n" + cc, head, "\n", BodyHeader);
  }

  /** The body ends with the mention line (empty when there is no one to
      mention) followed by a line break. */
  lemma MentionShown(data: TmplData, resolve: TitleResolver)
    requires data.newIssues != [] || data.oldIssues != []
    ensures HasSuffix(GenerateBody(data, resolve), "\n" + CcLine(data.mention) + "\n")
  {
    var upper := "\n" + Previously(data.oldIssueURL) + "\n\n" + Checklist(data.oldIssues, resolve)
                 + "\n" + NewSection(data.newIssues, resolve);
    SuffixOfConcat(upper, "\n", CcLine(data.mention), "\n");
    SuffixOfExtension(BodyHeader, RenderTemplate(data, resolve), "\n" + CcLine(data.mention) + "\n");
  }
}

=== FILE: github.dfy ===
/** The GitHub side of the radar (github.go): finding the previous radar
    issue, gathering the links left in it and in its comments, and rotating
    it for a new issue.

    The GitHub API is a `Server` value that says how GitHub answers each
    request made with one token. A `GitHubClient` sends requests to it and
    records them, in order, in its `calls` field; the order of those calls
    is what the rotation promises. */
module GitHub {
  import opened Wrappers
  import opened Strings
  import opened Sorting
  import opened RadarItems
  import opened Parser
  import opened Body

  datatype Repo = Repo(owner: string, name: string)

  /** The fields of a *github.Issue that the core reads. */
  datatype Issue = Issue(number: int, htmlURL: string, body: string)

  /** One page of an issue's comments, oldest first: their bodies, and the
      response's NextPage, which is 0 on the last page. */
  datatype CommentsPage = CommentsPage(bodies: seq<string>, nextPage: nat)

  /** A request sent to GitHub. `Close` is the edit that sets an issue's
      state to "closed". */
  datatype Call =
    | Search(query: string)
    | ListComments(repo: Repo, number: int, page: nat)
    | Create(repo: Repo, title: string, body: string, labels: seq<string>)
    | Close(repo: Repo, number: int)

  /** How GitHub answers the requests of one token; None is an error.
      `search` answers with the matching issues, newest first; `comments`
      answers with one page of an issue's comments, page 0 being the first;
      `edit` tells whether closing an issue worked. */
  datatype Server = Server(
    search: string -> Option<seq<Issue>>,
    comments: (Repo, int, nat) -> Option<CommentsPage>,
    lastPage: nat,
    create: (Repo, string, string, seq<string>) -> Option<Issue>,
    edit: (Repo, int) -> bool)
  {
    /** Every NextPage other than 0 lies after the page it came with and no
        later than `lastPage`: GitHub's pagination runs forward and ends. */
    ghost predicate PagesAdvance() {
      forall repo: Repo, number: int, page: nat ::
        comments(repo, number, page).Some? && comments(repo, number, page).value.nextPage != 0 ==>
          page < comments(repo, number, page).value.nextPage <= lastPage
    }
  }

  /** A *github.Client: it forwards every request to GitHub and remembers
      it. */
  class GitHubClient {
    const token: string
    const server: Server
    /** The requests sent so far, oldest first. */
    var calls: seq<Call>

    constructor (token: string, server: Server)
      ensures this.token == token && this.server == server && calls == []
    {
      this.token := token;
      this.server := server;
      calls := [];
    }

    /** client.Search.Issues */
    method SearchIssues(query: string) returns (r: Option<seq<Issue>>)
      modifies this
      ensures r == server.search(query) && calls == old(calls) + [Search(query)]
    {
      r := server.search(query);
      calls := calls + [Search(query)];
    }

    /** client.Issues.ListComments */
    method ListIssueComments(repo: Repo, number: int, page: nat) returns (r: Option<CommentsPage>)
      modifies this
      ensures r == server.comments(repo, number, page)
      ensures calls == old(calls) + [ListComments(repo, number, page)]
    {
      r := server.comments(repo, number, page);
      calls := calls + [ListComments(repo, number, page)];
    }

    /** client.Issues.Create */
    method CreateIssue(repo: Repo, title: string, body: string, labels: seq<string>) returns (r: Option<Issue>)
      modifies this
      ensures r == server.create(repo, title, body, labels)
      ensures calls == old(calls) + [Create(repo, title, body, labels)]
    {
      r := server.create(repo, title, body, labels);
      calls := calls + [Create(repo, title, body, labels)];
    }

    /** client.Issues.Edit with the state "closed". */
    method EditIssue(repo: Repo, number: int) returns (ok: bool)
      modifies this
      ensures ok == server.edit(repo, number) && calls == old(calls) + [Close(repo, number)]
    {
      ok := server.edit(repo, number);
      calls := calls + [Close(repo, number)];
    }
  }

  /** The package-level `clients` map: one client per token. */
  class Clients {
    var clients: map<string, GitHubClient>

    constructor ()
      ensures clients == map[]
    {
      clients := map[];
    }

    /** NewGitHubClient: the client already made for `token`, or a new one,
        which is remembered. `server` is how GitHub answers that token. */
    method NewGitHubClient(token: string, server: Server) returns (client: GitHubClient)
      modifies this
      ensures token in clients && clients[token] == client
      ensures token in old(clients) ==> client == old(clients)[token] && clients == old(clients)
      ensures token !in old(clients) ==>
                fresh(client) && client.token == token && client.server == server && client.calls == []
                && clients == old(clients)[token := client]
    {
      if token !in clients {
        var made := new GitHubClient(token, server);
        clients := clients[token := made];
      }
      client := clients[token];
    }
  }

  /** The search for open radar issues of a repository. */
  function PreviousIssueQuery(repo: Repo): string {
    "repo:" + repo.owner + "/" + repo.name + " is:open is:issue label:radar"
  }

  /** The choice getPreviousRadarIssue makes from the search result: the
      first hit, which is the newest open radar issue, or none when the
      search fails or finds nothing. */
  function FirstHit(result: Option<seq<Issue>>): (previous: Option<Issue>)
    ensures previous.Some? <==> result.Some? && result.value != []
    ensures previous.Some? ==> previous.value == result.value[0]
  {
    match result
    case None => None
    case Some(issues) => if |issues| == 0 then None else Some(issues[0])
  }

  /** getPreviousRadarIssue: one search; an error or an empty result is
      only logged. */
  method GetPreviousRadarIssue(client: GitHubClient, repo: Repo) returns (previous: Option<Issue>)
    modifies client
    ensures previous == FirstHit(client.server.search(PreviousIssueQuery(repo)))
    ensures client.calls == old(client.calls) + [Search(PreviousIssueQuery(repo))]
  {
    var query := PreviousIssueQuery(repo);
    var result := client.SearchIssues(query);
    if result.None? {
      return None;
    }
    if |result.value| == 0 {
      return None;
    }
    return Some(result.value[0]);
  }

  /** The links of a run of comments, comment by comment. */
  function CommentLinks(bodies: seq<string>, sections: ChangelogReader): (r: Outcome<seq<Link>>)
    ensures r.Done? ==> forall l <- r.value :: l.url != "" && !Contains(l.url, "](")
  {
    if bodies == [] then Done([])
    else Then(CommentLinks(bodies[..|bodies| - 1], sections), TodosOfBody(bodies[|bodies| - 1], sections))
  }

  /** What the comment loop gathers: the links, and the pages it asks for,
      in order. */
  datatype Fetch = Fetch(links: Outcome<seq<Link>>, pages: seq<nat>)

  /** The comment loop from `page` on: an error ends it, keeping what was
      gathered; a page whose comments make Go panic ends everything; a
      NextPage of 0 ends it; any other NextPage is asked for next. */
  function CommentPages(server: Server, repo: Repo, number: int, page: nat, sections: ChangelogReader): (f: Fetch)
    requires server.PagesAdvance() && page <= server.lastPage
    ensures f.pages != [] && f.pages[0] == page
    ensures f.links.Done? ==> forall l <- f.links.value :: l.url != "" && !Contains(l.url, "](")
    decreases server.lastPage - page
  {
    match server.comments(repo, number, page)
    case None => Fetch(Done([]), [page])
    case Some(resp) =>
      var here := CommentLinks(resp.bodies, sections);
      if here.Panic? || resp.nextPage == 0 then Fetch(here, [page])
      else
        var rest := CommentPages(server, repo, number, resp.nextPage, sections);
        Fetch(Then(here, rest.links), [page] + rest.pages)
  }

  /** extractGitHubLinks as a value: the issue's own links, then those of its
      comments from the first page on. */
  function GitHubLinks(server: Server, repo: Repo, issue: Issue, sections: ChangelogReader): (f: Fetch)
    requires server.PagesAdvance()
    ensures f.links.Done? ==> TodosOfBody(issue.body, sections).Done?
                              && TodosOfBody(issue.body, sections).value <= f.links.value
    ensures f.pages == [] <==> TodosOfBody(issue.body, sections).Panic?
    ensures f.links.Done? ==> forall l <- f.links.value :: l.url != "" && !Contains(l.url, "](")
  {
    var own := TodosOfBody(issue.body, sections);
    if own.Panic? then Fetch(Panic, [])
    else
      var comments := CommentPages(server, repo, issue.number, 0, sections);
      Fetch(Then(own, comments.links), comments.pages)
  }

  /** The requests that ask for `pages` of an issue's comments. */
  function CommentCalls(repo: Repo, number: int, pages: seq<nat>): (calls: seq<Call>)
    ensures |calls| == |pages|
    ensures forall i :: 0 <= i < |pages| ==> calls[i] == ListComments(repo, number, pages[i])
  {
    seq(|pages|, i requires 0 <= i < |pages| => ListComments(repo, number, pages[i]))
  }

  /** Pages are asked for in strictly increasing order, starting at `page`
      and never past the last page. */
  lemma {:induction false} PagesIncrease(server: Server, repo: Repo, number: int, page: nat, sections: ChangelogReader)
    requires server.PagesAdvance() && page <= server.lastPage
    ensures Increasing(CommentPages(server, repo, number, page, sections).pages)
    ensures forall p <- CommentPages(server, repo, number, page, sections).pages :: page <= p <= server.lastPage
    decreases server.lastPage - page
  {
    var resp := server.comments(repo, number, page);
    if resp.Some? && CommentLinks(resp.value.bodies, sections).Done? && resp.value.nextPage != 0 {
      var next := resp.value.nextPage;
      assert page < next <= server.lastPage;
      PagesIncrease(server, repo, number, next, sections);
      var rest := CommentPages(server, repo, number, next, sections).pages;
      assert CommentPages(server, repo, number, page, sections).pages == [page] + rest;
      IncreasingCons(page, rest, next, server.lastPage);
    }
  }

  /** Strictly increasing. */
  predicate Increasing(pages: seq<nat>) {
    forall i, j :: 0 <= i < j < |pages| ==> pages[i] < pages[j]
  }

  lemma IncreasingCons(page: nat, rest: seq<nat>, next: nat, last: nat)
    requires page < next && page <= last
    requires Increasing(rest) && forall p <- rest :: next <= p <= last
    ensures Increasing([page] + rest) && forall p <- [page] + rest :: page <= p <= last
  {
    var pages := [page] + rest;
    forall i, j | 0 <= i < j < |pages| ensures pages[i] < pages[j] {
      assert pages[j] == rest[j - 1] && rest[j - 1] in rest;
      if i > 0 {
        assert pages[i] == rest[i - 1];
      }
    }
  }

  /** The loop follows NextPage: every page but the last was answered with
      the next one as its NextPage; the last was answered with an error, with
      comments that make Go panic, or with a NextPage of 0. */
  lemma {:induction false} PagesFollowNextPage(server: Server, repo: Repo, number: int, page: nat, sections: ChangelogReader)
    requires server.PagesAdvance() && page <= server.lastPage
    ensures var pages := CommentPages(server, repo, number, page, sections).pages;
            (forall i :: 0 <= i < |pages| - 1 ==>
               server.comments(repo, number, pages[i]).Some?
               && server.comments(repo, number, pages[i]).value.nextPage == pages[i + 1])
            && var last := server.comments(repo, number, pages[|pages| - 1]);
               last.None? || last.value.nextPage == 0 || CommentLinks(last.value.bodies, sections).Panic?
    decreases server.lastPage - page
  {
    var resp := server.comments(repo, number, page);
    if resp.Some? && CommentLinks(resp.value.bodies, sections).Done? && resp.value.nextPage != 0 {
      var next := resp.value.nextPage;
      PagesFollowNextPage(server, repo, number, next, sections);
      var rest := CommentPages(server, repo, number, next, sections).pages;
      var pages := CommentPages(server, repo, number, page, sections).pages;
      assert pages == [page] + rest;
      forall i | 0 <= i < |pages| - 1
        ensures server.comments(repo, number, pages[i]).Some?
        ensures server.comments(repo, number, pages[i]).value.nextPage == pages[i + 1]
      {
        if i > 0 {
          assert pages[i] == rest[i - 1] && pages[i + 1] == rest[i];
        }
      }
      assert pages[|pages| - 1] == rest[|rest| - 1];
    }
  }

  /** When the first page of comments cannot be fetched, the issue's own
      links are all there is. */
  lemma FirstPageFailure(server: Server, repo: Repo, issue: Issue, sections: ChangelogReader)
    requires server.PagesAdvance() && server.comments(repo, issue.number, 0).None?
    ensures GitHubLinks(server, repo, issue, sections).links == TodosOfBody(issue.body, sections)
  {
    ThenNothing(TodosOfBody(issue.body, sections));
  }

  /** A panic on one of the first comments is a panic of the whole run. */
  lemma {:induction false} CommentPanicInPrefix(bodies: seq<string>, j: int, sections: ChangelogReader)
    requires 0 <= j < |bodies| && CommentLinks(bodies[..j + 1], sections).Panic?
    ensures CommentLinks(bodies, sections).Panic?
  {
    if j + 1 < |bodies| {
      var front := bodies[..|bodies| - 1];
      assert front[..j + 1] == bodies[..j + 1];
      CommentPanicInPrefix(front, j, sections);
    } else {
      assert bodies[..j + 1] == bodies;
    }
  }

  lemma CommentLinksSnoc(bodies: seq<string>, body: string, sections: ChangelogReader)
    ensures CommentLinks(bodies + [body], sections) == Then(CommentLinks(bodies, sections), TodosOfBody(body, sections))
  {
    assert (bodies + [body])[..|bodies|] == bodies;
  }

  lemma LinksOfAppend(a: seq<RadarItem>, b: seq<RadarItem>)
    ensures LinksOf(a + b) == LinksOf(a) + LinksOf(b)
  {
    MapAppend(LinkOf, a, b);
  }

  /** The loop over one page of comments: appends the items of each comment,
      in order, to `items`. */
  method AppendCommentTodos(items: seq<RadarItem>, bodies: seq<string>, sections: ChangelogReader)
    returns (r: Outcome<seq<RadarItem>>)
    ensures r.Panic? <==> CommentLinks(bodies, sections).Panic?
    ensures r.Done? ==> LinksOf(r.value) == LinksOf(items) + CommentLinks(bodies, sections).value
    ensures r.Done? ==> forall item <- r.value :: item in items || (fresh(item) && item.parsedURL == None)
  {
    var acc := items;
    var j := 0;
    while j < |bodies|
      invariant 0 <= j <= |bodies|
      invariant CommentLinks(bodies[..j], sections).Done?
      invariant LinksOf(acc) == LinksOf(items) + CommentLinks(bodies[..j], sections).value
      invariant forall item <- acc :: item in items || (fresh(item) && item.parsedURL == None)
    {
      var next := AppendNextComment(items, acc, bodies, j, sections);
      if next.Panic? {
        return Panic;
      }
      acc := next.value;
      j := j + 1;
    }
    assert bodies[..|bodies|] == bodies;
    return Done(acc);
  }

  /** One turn of the loop over a page of comments: the items of comment j
      appended to those of the comments before it. */
  method AppendNextComment(items: seq<RadarItem>, acc: seq<RadarItem>, bodies: seq<string>, j: int,
                           sections: ChangelogReader)
    returns (r: Outcome<seq<RadarItem>>)
    requires 0 <= j < |bodies| && CommentLinks(bodies[..j], sections).Done?
    requires LinksOf(acc) == LinksOf(items) + CommentLinks(bodies[..j], sections).value
    ensures r.Panic? ==> CommentLinks(bodies, sections).Panic?
    ensures r.Done? ==> CommentLinks(bodies[..j + 1], sections).Done?
    ensures r.Done? ==> LinksOf(r.value) == LinksOf(items) + CommentLinks(bodies[..j + 1], sections).value
    ensures r.Done? ==> forall item <- r.value :: item in acc || (fresh(item) && item.parsedURL == None)
  {
    assert bodies[..j + 1] == bodies[..j] + [bodies[j]];
    CommentLinksSnoc(bodies[..j], bodies[j], sections);
    r := AppendBodyTodos(acc, bodies[j], sections);
    if r.Panic? {
      CommentPanicInPrefix(bodies, j, sections);
    } else {
      AppendAssociative(LinksOf(items), CommentLinks(bodies[..j], sections).value, TodosOfBody(bodies[j], sections).value);
    }
  }

  /** The items of one comment appended to `items`. */
  method AppendBodyTodos(items: seq<RadarItem>, body: string, sections: ChangelogReader)
    returns (r: Outcome<seq<RadarItem>>)
    ensures r.Panic? <==> TodosOfBody(body, sections).Panic?
    ensures r.Done? ==> LinksOf(r.value) == LinksOf(items) + TodosOfBody(body, sections).value
    ensures r.Done? ==> forall item <- r.value :: item in items || (fresh(item) && item.parsedURL == None)
  {
    var more := ExtractLinkedTodosFromMarkdown(body, sections);
    if more.Panic? {
      return Panic;
    }
    LinksOfAppend(items, more.value);
    return Done(items + more.value);
  }

  /** extractGitHubLinks: the items of the issue's body, then those of its
      comments, page by page. A failed request ends the loop and keeps what
      was gathered; a NextPage of 0 ends it; any other NextPage is fetched
      next. */
  method ExtractGitHubLinks(client: GitHubClient, repo: Repo, issue: Issue, sections: ChangelogReader)
    returns (r: Outcome<seq<RadarItem>>)
    requires client.server.PagesAdvance()
    modifies client
    ensures r.Panic? <==> GitHubLinks(client.server, repo, issue, sections).links.Panic?
    ensures r.Done? ==> LinksOf(r.value) == GitHubLinks(client.server, repo, issue, sections).links.value
    ensures client.calls
            == old(client.calls) + CommentCalls(repo, issue.number, GitHubLinks(client.server, repo, issue, sections).pages)
    ensures r.Done? ==> forall item <- r.value :: fresh(item) && item.parsedURL == None
  {
    var server := client.server;
    var own := ExtractLinkedTodosFromMarkdown(issue.body, sections);
    assert CommentCalls(repo, issue.number, []) == [] && client.calls + [] == client.calls;
    if own.Panic? {
      return Panic;
    }
    var items := own.value;
    var page: nat := 0;
    ghost var asked: seq<nat> := [];
    while true
      invariant page <= server.lastPage
      invariant GitHubLinks(server, repo, issue, sections).pages
                == asked + CommentPages(server, repo, issue.number, page, sections).pages
      invariant GitHubLinks(server, repo, issue, sections).links
                == Then(Done(LinksOf(items)), CommentPages(server, repo, issue.number, page, sections).links)
      invariant client.calls == old(client.calls) + CommentCalls(repo, issue.number, asked)
      invariant forall item <- items :: fresh(item) && item.parsedURL == None
      decreases server.lastPage - page
    {
      var more, next := ReadCommentPage(client, repo, issue.number, page, items, sections);
      CommentCallsSnoc(repo, issue.number, asked, page);
      AppendAssociative(old(client.calls), CommentCalls(repo, issue.number, asked), [ListComments(repo, issue.number, page)]);
      if next == 0 {
        return more;
      }
      AppendAssociative(asked, [page], CommentPages(server, repo, issue.number, next, sections).pages);
      items := more.value;
      asked := asked + [page];
      page := next;
    }
  }

  /** One turn of the comment loop: asks for `page` and appends the items
      of its comments to `items`. `next` is the page to ask for next, or 0
      when the loop ends here. */
  method ReadCommentPage(client: GitHubClient, repo: Repo, number: int, page: nat, items: seq<RadarItem>,
                         sections: ChangelogReader)
    returns (r: Outcome<seq<RadarItem>>, next: nat)
    requires client.server.PagesAdvance() && page <= client.server.lastPage
    modifies client
    ensures client.calls == old(client.calls) + [ListComments(repo, number, page)]
    ensures var f := CommentPages(client.server, repo, number, page, sections);
            (next == 0 ==> f.pages == [page]
                           && (r.Panic? <==> Then(Done(LinksOf(items)), f.links).Panic?)
                           && (r.Done? ==> Then(Done(LinksOf(items)), f.links) == Done(LinksOf(r.value))))
            && (next != 0 ==>
                  page < next <= client.server.lastPage && r.Done?
                  && var rest := CommentPages(client.server, repo, number, next, sections);
                  f.pages == [page] + rest.pages
                  && Then(Done(LinksOf(items)), f.links) == Then(Done(LinksOf(r.value)), rest.links))
    ensures r.Done? ==> forall item <- r.value :: item in items || (fresh(item) && item.parsedURL == None)
  {
    CommentPagesStep(client.server, repo, number, page, sections, LinksOf(items));
    var resp := client.ListIssueComments(repo, number, page);
    if resp.None? {
      return Done(items), 0;
    }
    r := AppendCommentTodos(items, resp.value.bodies, sections);
    if r.Panic? {
      return r, 0;
    }
    next := resp.value.nextPage;
  }

  /** One turn of the comment loop, as values: what asking for `page` adds
      to the links `done` gathered so far, and which page comes next. */
  lemma CommentPagesStep(server: Server, repo: Repo, number: int, page: nat, sections: ChangelogReader, done: seq<Link>)
    requires server.PagesAdvance() && page <= server.lastPage
    ensures var resp := server.comments(repo, number, page);
            var f := CommentPages(server, repo, number, page, sections);
            (resp.None? ==> Then(Done(done), f.links) == Done(done) && f.pages == [page])
            && (resp.Some? && CommentLinks(resp.value.bodies, sections).Panic? ==>
                  Then(Done(done), f.links).Panic? && f.pages == [page])
            && (resp.Some? && CommentLinks(resp.value.bodies, sections).Done? && resp.value.nextPage == 0 ==>
                  Then(Done(done), f.links) == Done(done + CommentLinks(resp.value.bodies, sections).value)
                  && f.pages == [page])
            && (resp.Some? && CommentLinks(resp.value.bodies, sections).Done? && resp.value.nextPage != 0 ==>
                  var rest := CommentPages(server, repo, number, resp.value.nextPage, sections);
                  Then(Done(done), f.links)
                  == Then(Done(done + CommentLinks(resp.value.bodies, sections).value), rest.links)
                  && f.pages == [page] + rest.pages)
  {
    var resp := server.comments(repo, number, page);
    if resp.None? {
      ThenNothing(Done(done));
    } else if CommentLinks(resp.value.bodies, sections).Done? && resp.value.nextPage != 0 {
      var here := CommentLinks(resp.value.bodies, sections);
      var rest := CommentPages(server, repo, number, resp.value.nextPage, sections);
      ThenAssociative(Done(done), here, rest.links);
    }
  }

  lemma CommentCallsSnoc(repo: Repo, number: int, pages: seq<nat>, page: nat)
    ensures CommentCalls(repo, number, pages + [page]) == CommentCalls(repo, number, pages) + [ListComments(repo, number, page)]
  {
  }

  /** How GenerateRadarIssue ends: with the new issue, with the error of a
      failed create, or in a panic. */
  datatype Rotation = Rotated(issue: Issue) | CreateFailed | Crashed

  /** The end of a rotation and the requests sent on the way. */
  datatype Run = Run(result: Rotation, calls: seq<Call>)

  const Labels: seq<string> := ["radar"]

  /** getTitle, given the day it formats as 2006-01-02. */
  function RadarTitle(day: string): string {
    "Radar for " + day
  }

  /** The issue getPreviousRadarIssue finds. */
  function PreviousIssue(server: Server, repo: Repo): Option<Issue> {
    FirstHit(server.search(PreviousIssueQuery(repo)))
  }

  /** The links carried over from the previous issue, if there is one. */
  function OldLinks(server: Server, repo: Repo, previous: Option<Issue>, sections: ChangelogReader): Fetch
    requires server.PagesAdvance()
  {
    match previous
    case None => Fetch(Done([]), [])
    case Some(issue) => GitHubLinks(server, repo, issue, sections)
  }

  /** The requests for the previous issue's comments. */
  function OldLinksCalls(repo: Repo, previous: Option<Issue>, pages: seq<nat>): (calls: seq<Call>)
    ensures forall c <- calls :: c.ListComments?
  {
    match previous
    case None => []
    case Some(issue) => CommentCalls(repo, issue.number, pages)
  }

  /** The requests sent before anything is written: the search, then the
      pages of the previous issue's comments. Only reads. */
  function ReadCalls(server: Server, repo: Repo, sections: ChangelogReader): (calls: seq<Call>)
    requires server.PagesAdvance()
    ensures calls != [] && calls[0] == Search(PreviousIssueQuery(repo))
    ensures forall c <- calls :: c.Search? || c.ListComments?
  {
    var previous := PreviousIssue(server, repo);
    [Search(PreviousIssueQuery(repo))] + OldLinksCalls(repo, previous, OldLinks(server, repo, previous, sections).pages)
  }

  /** The template data of the new issue: the link to the previous issue,
      no new items, the carried-over links ordered by host name, and the
      mention. */
  function RadarData(previous: Option<Issue>, carried: seq<Link>, mention: string, parse: UrlParser): TmplData {
    TmplData(if previous.Some? then previous.value.htmlURL else "", [], StableSort(carried, LinkHostKey(parse)), mention)
  }

  function RadarBody(previous: Option<Issue>, carried: seq<Link>, mention: string, resolve: TitleResolver,
                     parse: UrlParser): string {
    GenerateBody(RadarData(previous, carried, mention, parse), resolve)
  }

  /** The end of a rotation once the body is ready: the create and, only
      when it worked and there is a previous issue, the close of that issue.
      Whether the close worked does not matter. */
  function CreateAndClose(server: Server, repo: Repo, title: string, body: string, previous: Option<Issue>): (run: Run)
    ensures run.calls != [] && run.calls[0] == Create(repo, title, body, Labels)
    ensures !run.result.Crashed?
  {
    var create := Create(repo, title, body, Labels);
    match server.create(repo, title, body, Labels)
    case None => Run(CreateFailed, [create])
    case Some(issue) =>
      if previous.Some? then Run(Rotated(issue), [create, Close(repo, previous.value.number)])
      else Run(Rotated(issue), [create])
  }

  /** GenerateRadarIssue as a value: what it returns and the requests it
      sends, in order. */
  function Rotate(server: Server, repo: Repo, mention: string, day: string, sections: ChangelogReader,
                  resolve: TitleResolver, parse: UrlParser): Run
    requires server.PagesAdvance()
  {
    var previous := PreviousIssue(server, repo);
    var fetched := OldLinks(server, repo, previous, sections);
    var before := ReadCalls(server, repo, sections);
    if fetched.links.Panic? then Run(Crashed, before)
    else
      var body := RadarBody(previous, fetched.links.value, mention, resolve, parse);
      var tail := CreateAndClose(server, repo, RadarTitle(day), body, previous);
      Run(tail.result, before + tail.calls)
  }

  /** GenerateRadarIssue: look for the previous issue, gather its links,
      order them by host name, create the new issue, and only then close the
      previous one. A failed close is logged and the new issue is still
      returned; a failed create is returned as an error. */
  method GenerateRadarIssue(client: GitHubClient, repo: Repo, mention: string, day: string,
                            sections: ChangelogReader, resolve: TitleResolver, parse: UrlParser)
    returns (r: Rotation)
    requires client.server.PagesAdvance()
    modifies client
    ensures r == Rotate(client.server, repo, mention, day, sections, resolve, parse).result
    ensures client.calls == old(client.calls) + Rotate(client.server, repo, mention, day, sections, resolve, parse).calls
  {
    var previous := GetPreviousRadarIssue(client, repo);
    var oldItems := FetchOldItems(client, repo, previous, sections);
    AppendAssociative(old(client.calls), [Search(PreviousIssueQuery(repo))],
                      OldLinksCalls(repo, previous, OldLinks(client.server, repo, previous, sections).pages));
    if oldItems.Panic? {
      return Crashed;
    }
    var body := RenderRadarBody(previous, oldItems.value, mention, resolve, parse);
    r := CreateAndCloseIssue(client, repo, RadarTitle(day), body, previous);
    AppendAssociative(old(client.calls), ReadCalls(client.server, repo, sections),
                      CreateAndClose(client.server, repo, RadarTitle(day), body, previous).calls);
  }

  /** The items of the previous issue, when there is one. */
  method FetchOldItems(client: GitHubClient, repo: Repo, previous: Option<Issue>, sections: ChangelogReader)
    returns (r: Outcome<seq<RadarItem>>)
    requires client.server.PagesAdvance()
    modifies client
    ensures r.Panic? <==> OldLinks(client.server, repo, previous, sections).links.Panic?
    ensures r.Done? ==> LinksOf(r.value) == OldLinks(client.server, repo, previous, sections).links.value
    ensures client.calls
            == old(client.calls) + OldLinksCalls(repo, previous, OldLinks(client.server, repo, previous, sections).pages)
    ensures r.Done? ==> forall item <- r.value :: fresh(item) && item.parsedURL == None
  {
    if previous.None? {
      assert client.calls + [] == client.calls;
      return Done([]);
    }
    r := ExtractGitHubLinks(client, repo, previous.value, sections);
  }

  /** Fills in the template data, sorts the new items (there are none) and
      the carried-over items in place by host name, and renders the body. */
  method RenderRadarBody(previous: Option<Issue>, items: seq<RadarItem>, mention: string, resolve: TitleResolver,
                         parse: UrlParser)
    returns (body: string)
    requires forall item <- items :: item.parsedURL == None
    modifies set item | item in items
    ensures body == RadarBody(previous, LinksOf(items), mention, resolve, parse)
  {
    var newIssues := new RadarItem[0];
    SortStable(newIssues, parse);
    var oldIssues := new RadarItem[|items|](i requires 0 <= i < |items| => items[i]);
    assert oldIssues[..] == items;
    SortStable(oldIssues, parse);
    SortedLinks(items, parse);
    assert newIssues[..] == [];
    var data := TmplData(if previous.Some? then previous.value.htmlURL else "",
                         LinksOf(newIssues[..]), LinksOf(oldIssues[..]), mention);
    body := GenerateBody(data, resolve);
  }

  /** The create, then the close of the previous issue when the create
      worked. */
  method CreateAndCloseIssue(client: GitHubClient, repo: Repo, title: string, body: string, previous: Option<Issue>)
    returns (r: Rotation)
    modifies client
    ensures r == CreateAndClose(client.server, repo, title, body, previous).result
    ensures client.calls == old(client.calls) + CreateAndClose(client.server, repo, title, body, previous).calls
  {
    var created := client.CreateIssue(repo, title, body, Labels);
    if created.None? {
      return CreateFailed;
    }
    if previous.Some? {
      var closed := client.EditIssue(repo, previous.value.number);
      AppendAssociative(old(client.calls), [Create(repo, title, body, Labels)], [Close(repo, previous.value.number)]);
    }
    return Rotated(created.value);
  }

  /** The previous issue is closed exactly when it exists and the new issue
      was created; the close is the last request and comes right after the
      create. A failed create is the last request. */
  lemma CloseOnlyAfterCreate(server: Server, repo: Repo, mention: string, day: string, sections: ChangelogReader,
                             resolve: TitleResolver, parse: UrlParser)
    requires server.PagesAdvance()
    ensures var run := Rotate(server, repo, mention, day, sections, resolve, parse);
            var previous := PreviousIssue(server, repo);
            ((exists k :: 0 <= k < |run.calls| && run.calls[k].Close?) <==> run.result.Rotated? && previous.Some?)
            && (run.result.Rotated? && previous.Some? ==>
                  |run.calls| >= 2 && run.calls[|run.calls| - 1] == Close(repo, previous.value.number)
                  && run.calls[|run.calls| - 2].Create?)
            && (run.result.CreateFailed? ==> run.calls[|run.calls| - 1].Create?)
  {
    var run := Rotate(server, repo, mention, day, sections, resolve, parse);
    var previous := PreviousIssue(server, repo);
    var fetched := OldLinks(server, repo, previous, sections);
    var before := ReadCalls(server, repo, sections);
    assert forall k :: 0 <= k < |before| ==> !before[k].Close? by {
      forall k | 0 <= k < |before| ensures !before[k].Close? {
        assert before[k] in before;
      }
    }
    if fetched.links.Done? {
      var body := RadarBody(previous, fetched.links.value, mention, resolve, parse);
      var tail := CreateAndClose(server, repo, RadarTitle(day), body, previous);
      assert run.calls == before + tail.calls;
      if run.result.Rotated? && previous.Some? {
        assert tail.calls == [Create(repo, RadarTitle(day), body, Labels), Close(repo, previous.value.number)];
        assert run.calls[|before| + 1].Close?;
      } else {
        assert tail.calls == [Create(repo, RadarTitle(day), body, Labels)];
        assert forall k :: 0 <= k < |run.calls| ==> !run.calls[k].Close? by {
          forall k | 0 <= k < |run.calls| ensures !run.calls[k].Close? {
            if k >= |before| {
              assert run.calls[k] == tail.calls[k - |before|];
            }
          }
        }
      }
    }
  }

  /** A panic while reading the previous issue ends the rotation before
      anything is created or closed. */
  lemma CrashCreatesNothing(server: Server, repo: Repo, mention: string, day: string, sections: ChangelogReader,
                            resolve: TitleResolver, parse: UrlParser)
    requires server.PagesAdvance()
    ensures var run := Rotate(server, repo, mention, day, sections, resolve, parse);
            (run.result.Crashed? <==> OldLinks(server, repo, PreviousIssue(server, repo), sections).links.Panic?)
            && (run.result.Crashed? ==> forall c <- run.calls :: c.Search? || c.ListComments?)
  {
  }

  /** An open list line of fewer than four characters in the previous issue
      (a summary such as "hi") is not skipped: cutting its "[ ] " marker
      panics, so the rotation crashes having sent only reads. */
  lemma ShortOpenLineCrashes(server: Server, repo: Repo, mention: string, day: string, sections: ChangelogReader,
                             resolve: TitleResolver, parse: UrlParser, i: int)
    requires server.PagesAdvance() && PreviousIssue(server, repo).Some?
    requires var lines := Flatten(sections(PreviousIssue(server, repo).value.body));
             0 <= i < |lines| && !IsChecked(lines[i]) && |lines[i]| < OpenMarkerLength
    ensures var run := Rotate(server, repo, mention, day, sections, resolve, parse);
            run.result.Crashed? && forall c <- run.calls :: c.Search? || c.ListComments?
  {
    var lines := Flatten(sections(PreviousIssue(server, repo).value.body));
    assert lines[..i + 1][..i] == lines[..i] && lines[..i + 1][i] == lines[i];
    assert TodosOfLines(lines[..i + 1]).Panic?;
    PanicInPrefix(lines, i);
    CrashCreatesNothing(server, repo, mention, day, sections, resolve, parse);
  }

  /** Without a previous issue nothing is read back: the search is followed
      by the create of an issue saying there is nothing to do. */
  lemma NoPreviousIssue(server: Server, repo: Repo, mention: string, day: string, sections: ChangelogReader,
                        resolve: TitleResolver, parse: UrlParser)
    requires server.PagesAdvance()
    requires PreviousIssue(server, repo).None?
    ensures var run := Rotate(server, repo, mention, day, sections, resolve, parse);
            |run.calls| == 2 && run.calls[0] == Search(PreviousIssueQuery(repo))
            && run.calls[1] == Create(repo, RadarTitle(day), NothingToDo, Labels)
            && !run.result.Crashed?
  {
    var previous := PreviousIssue(server, repo);
    assert RadarData(previous, [], mention, parse).oldIssues == [];
    assert ReadCalls(server, repo, sections) == [Search(PreviousIssueQuery(repo))];
  }

  /** The new issue links back to the previous one and lists every
      carried-over link once, ordered by host name, links with the same host
      name in the order they were found. */
  lemma CarriedOverOrdered(previous: Option<Issue>, carried: seq<Link>, mention: string, parse: UrlParser)
    requires previous.Some?
    ensures var data := RadarData(previous, carried, mention, parse);
            data.oldIssueURL == previous.value.htmlURL && data.newIssues == [] && data.mention == mention
            && SortedBy(data.oldIssues, LinkHostKey(parse))
            && multiset(data.oldIssues) == multiset(carried)
            && forall k :: WithKey(data.oldIssues, LinkHostKey(parse), k) == WithKey(carried, LinkHostKey(parse), k)
  {
    StableSortSorted(carried, LinkHostKey(parse));
    StableSortPermutes(carried, LinkHostKey(parse));
    forall k ensures WithKey(StableSort(carried, LinkHostKey(parse)), LinkHostKey(parse), k)
                     == WithKey(carried, LinkHostKey(parse), k) {
      StableSortStable(carried, LinkHostKey(parse), k);
    }
  }

  /** Every carried-over link can be rendered and read back: the list lines
      of the new issue's body parse back to the carried-over links, in the
      order the body lists them, with their titles filled in. */
  lemma CarriedOverParseBack(server: Server, repo: Repo, mention: string, sections: ChangelogReader,
                             resolve: TitleResolver, parse: UrlParser)
    requires server.PagesAdvance()
    ensures var previous := PreviousIssue(server, repo);
            var fetched := OldLinks(server, repo, previous, sections);
            fetched.links.Done? ==>
              var listed := RadarData(previous, fetched.links.value, mention, parse).oldIssues;
              TodosOfLines(Summaries(listed, resolve)) == Done(ResolvedAll(listed, resolve))
  {
    var previous := PreviousIssue(server, repo);
    var fetched := OldLinks(server, repo, previous, sections);
    if fetched.links.Done? {
      var carried := fetched.links.value;
      var listed := RadarData(previous, carried, mention, parse).oldIssues;
      StableSortPermutes(carried, LinkHostKey(parse));
      forall l <- listed ensures l.url != "" && !Contains(l.url, "](") {
        assert l in multiset(listed);
      }
      EntriesParseBack(listed, resolve);
    }
  }

  /** Unless reading the previous issue panics, the create comes right after
      the reads and sends the body made from the carried-over links. */
  lemma CreateAfterReads(server: Server, repo: Repo, mention: string, day: string, sections: ChangelogReader,
                         resolve: TitleResolver, parse: UrlParser)
    requires server.PagesAdvance()
    ensures var run := Rotate(server, repo, mention, day, sections, resolve, parse);
            var previous := PreviousIssue(server, repo);
            var fetched := OldLinks(server, repo, previous, sections);
            var before := ReadCalls(server, repo, sections);
            fetched.links.Done? ==>
              |run.calls| > |before| && run.calls[..|before|] == before
              && run.calls[|before|]
                 == Create(repo, RadarTitle(day), RadarBody(previous, fetched.links.value, mention, resolve, parse), Labels)
  {
  }

  /** A failed request for the first page of comments does not stop the
      rotation: the new issue carries only the links of the previous issue's
      own body, and the previous issue is still closed once the create works.
      Links left in its comments are not carried over. */
  lemma CommentFailureStillRotates(server: Server, repo: Repo, mention: string, day: string,
                                   sections: ChangelogReader, resolve: TitleResolver, parse: UrlParser)
    requires server.PagesAdvance() && PreviousIssue(server, repo).Some?
    requires server.comments(repo, PreviousIssue(server, repo).value.number, 0).None?
    requires TodosOfBody(PreviousIssue(server, repo).value.body, sections).Done?
    ensures var run := Rotate(server, repo, mention, day, sections, resolve, parse);
            var previous := PreviousIssue(server, repo);
            var body := RadarBody(previous, TodosOfBody(previous.value.body, sections).value, mention, resolve, parse);
            var tail := CreateAndClose(server, repo, RadarTitle(day), body, previous);
            run.result == tail.result
            && run.calls == [Search(PreviousIssueQuery(repo)), ListComments(repo, previous.value.number, 0)] + tail.calls
  {
    var previous := PreviousIssue(server, repo);
    FirstPageFailure(server, repo, previous.value, sections);
    assert CommentCalls(repo, previous.value.number, [0]) == [ListComments(repo, previous.value.number, 0)];
  }

  /** Whether closing the previous issue works changes neither the result
      nor the requests. */
  lemma CloseFailureIgnored(server: Server, edit: (Repo, int) -> bool, repo: Repo, mention: string, day: string,
                            sections: ChangelogReader, resolve: TitleResolver, parse: UrlParser)
    requires server.PagesAdvance()
    ensures server.(edit := edit).PagesAdvance()
    ensures Rotate(server.(edit := edit), repo, mention, day, sections, resolve, parse)
         == Rotate(server, repo, mention, day, sections, resolve, parse)
  {
    var other := server.(edit := edit);
    assert other.comments == server.comments && other.lastPage == server.lastPage;
    OldLinksIgnoreEdit(server, other, repo, PreviousIssue(server, repo), sections);
  }

  lemma OldLinksIgnoreEdit(server: Server, other: Server, repo: Repo, previous: Option<Issue>, sections: ChangelogReader)
    requires server.PagesAdvance() && other.PagesAdvance()
    requires other.comments == server.comments && other.lastPage == server.lastPage
    ensures OldLinks(other, repo, previous, sections) == OldLinks(server, repo, previous, sections)
  {
    if previous.Some? {
      CommentPagesIgnoreEdit(server, other, repo, previous.value.number, 0, sections);
    }
  }

  lemma {:induction false} CommentPagesIgnoreEdit(server: Server, other: Server, repo: Repo, number: int, page: nat,
                                                  sections: ChangelogReader)
    requires server.PagesAdvance() && other.PagesAdvance() && page <= server.lastPage
    requires other.comments == server.comments && other.lastPage == server.lastPage
    ensures CommentPages(other, repo, number, page, sections) == CommentPages(server, repo, number, page, sections)
    decreases server.lastPage - page
  {
    var resp := server.comments(repo, number, page);
    if resp.Some? && CommentLinks(resp.value.bodies, sections).Done? && resp.value.nextPage != 0 {
      CommentPagesIgnoreEdit(server, other, repo, number, resp.value.nextPage, sections);
    }
  }
}

=== FILE: parser.dfy ===
/** Checklist parsing (parser.go): splitting a markdown link, turning the
    list lines of a radar issue body into links, and the two classifiers
    used when a title has to be fetched. */
module Parser {
  import opened Wrappers
  import opened Strings
  import opened Sorting
  import opened RadarItems

  /** titleForWebpage, which fetches a page (or asks the GitHub API) for a
      title; it is an input of the model. */
  type TitleResolver = string -> string

  /** RadarItem.GetTitle: the stored title, or a fetched one when the stored
      title is empty. The receiver is a copy, so nothing is remembered. */
  function GetTitle(link: Link, resolve: TitleResolver): (title: string)
    ensures title == "" ==> link.title == "" && resolve(link.url) == ""
    ensures link.title != "" ==> title == link.title
    ensures link.title == "" ==> title == resolve(link.url)
  {
    if link.title == "" then resolve(link.url) else link.title
  }

  /** Storing the title GetTitle returned and asking again gives the same
      title: the fallback is only consulted for an empty title. */
  lemma GetTitleSettles(link: Link, resolve: TitleResolver)
    ensures GetTitle(Link(GetTitle(link, resolve), link.url), resolve) == GetTitle(link, resolve)
  {
  }

  /** parseMarkdownLink: the title runs from after the first "[" to the last
      "](", the URL from there to the last ")". A missing marker gives an
      empty title and URL; markers in the wrong order make Go's slice
      expressions panic. */
  function ParseMarkdownLink(link: string): (r: Outcome<Link>)
    ensures !(Contains(link, ")") && Contains(link, "](") && Contains(link, "[")) ==>
              r == Done(Link("", ""))
    ensures r.Done? ==> |r.value.title| + |r.value.url| <= |link|
  {
    var closing := LastIndex(link, ")");
    var boundary := LastIndex(link, "](");
    var opening := Index(link, "[");
    if closing < 0 || boundary < 0 || opening < 0 then Done(Link("", ""))
    else if opening + 1 <= boundary && boundary + 2 <= closing then
      Done(Link(link[opening + 1..boundary], link[boundary + 2..closing]))
    else Panic
  }

  /** A URL the parser returns never holds "](": it starts after the last
      one. */
  lemma ParsedUrlNoBoundary(link: string)
    requires ParseMarkdownLink(link).Done?
    ensures !Contains(ParseMarkdownLink(link).value.url, "](")
  {
    var url := ParseMarkdownLink(link).value.url;
    var b := LastIndex(link, "](");
    forall k | 0 <= k <= |url| - 2 ensures !OccursAt(url, "](", k) {
      assert url[k..k + 2] == link[b + 2 + k..b + 4 + k];
      assert !OccursAt(link, "](", b + 2 + k);
    }
  }

  /** `link` reads pre + "[" + title + "](" + url + ")" + post, where that
      "[" is the first "[", that "](" the last "](" and that ")" the last ")". */
  ghost predicate MarkdownSplit(link: string, pre: string, title: string, url: string, post: string) {
    link == pre + "[" + title + "](" + url + ")" + post
    && !Contains(pre, "[")
    && !Contains(url + ")" + post, "](")
    && !Contains(post, ")")
  }

  /** Every such split is what parseMarkdownLink finds. */
  lemma ParseOfSplit(link: string, pre: string, title: string, url: string, post: string)
    requires MarkdownSplit(link, pre, title, url, post)
    ensures ParseMarkdownLink(link) == Done(Link(title, url))
  {
    var b := |pre| + 1 + |title|;
    SplitPieces(link, pre, title, url, post, "[", "](", ")");
    assert link[b + 1] == '(' by {
      assert link[b..b + 2][1] == "]("[1];
    }
    ParseAt(link, |pre|, b, b + 2 + |url|);
  }

  /** A "[" with none before it, a later "](" with none in the text after
      it, and a later ")" with none after it are what parseMarkdownLink finds. */
  lemma ParseAt(link: string, o: int, b: int, c: int)
    requires 0 <= o < b && b + 2 <= c < |link|
    requires OccursAt(link, "[", o) && !Contains(link[..o], "[")
    requires OccursAt(link, "](", b) && link[b + 1] == '(' && !Contains(link[b + 2..], "](")
    requires OccursAt(link, ")", c) && !Contains(link[c + 1..], ")")
    ensures ParseMarkdownLink(link) == Done(Link(link[o + 1..b], link[b + 2..c]))
  {
    IndexAfterAbsent(link, "[", link[..o]);
    LastIndexBeforeAbsent(link, "](", b, b + 2);
    LastIndexBeforeAbsent(link, ")", c, c + 1);
  }

  /** Where the parts of pre + open + title + boundary + url + close + post
      lie. */
  lemma SplitPieces(link: string, pre: string, title: string, url: string, post: string,
                    open: string, boundary: string, close: string)
    requires |open| == 1 && |boundary| == 2 && |close| == 1
    requires link == pre + open + title + boundary + url + close + post
    ensures var o, b := |pre|, |pre| + 1 + |title|;
            var c := b + 2 + |url|;
            c < |link| && link[..o] == pre && OccursAt(link, open, o) && link[o + 1..b] == title
            && OccursAt(link, boundary, b) && link[b + 2..c] == url && OccursAt(link, close, c)
            && link[c + 1..] == post && link[b + 2..] == url + close + post
  {
  }

  /** The indexes parseMarkdownLink finds when it produces a non-empty URL. */
  lemma ParseIndexes(link: string) returns (o: int, b: int, c: int)
    requires ParseMarkdownLink(link).Done? && ParseMarkdownLink(link).value.url != ""
    ensures 0 <= o < b && b + 2 <= c < |link|
    ensures OccursAt(link, "[", o) && forall k :: 0 <= k < o ==> !OccursAt(link, "[", k)
    ensures OccursAt(link, "](", b) && forall k :: b < k ==> !OccursAt(link, "](", k)
    ensures OccursAt(link, ")", c) && forall k :: c < k ==> !OccursAt(link, ")", k)
    ensures ParseMarkdownLink(link).value == Link(link[o + 1..b], link[b + 2..c])
  {
    c := LastIndex(link, ")");
    b := LastIndex(link, "](");
    o := Index(link, "[");
  }

  /** Cutting a string at an opening marker, a later boundary marker and a
      later closing marker and putting the pieces back together gives the
      string. */
  lemma Reassemble(link: string, o: int, b: int, c: int, open: string, boundary: string, close: string)
    requires |open| == 1 && |boundary| == 2 && |close| == 1
    requires 0 <= o < b && b + 2 <= c < |link|
    requires OccursAt(link, open, o) && OccursAt(link, boundary, b) && OccursAt(link, close, c)
    ensures link == link[..o] + open + link[o + 1..b] + boundary + link[b + 2..c] + close + link[c + 1..]
  {
    ReassembleTail(link, b, c, boundary, close);
    PeelAt(link, o + 1, b, link[o + 1..b]);
    PeelAt(link, o, o + 1, open);
    PeelAt(link, 0, o, link[..o]);
    var pre, title, url, post := link[..o], link[o + 1..b], link[b + 2..c], link[c + 1..];
    AppendAssociative(open, title, link[b..]);
    AppendAssociative(pre, open + title, link[b..]);
    AppendAssociative(pre, open, title);
    var front := pre + open + title;
    AppendAssociative(front, boundary + url + close, post);
    AppendAssociative(front, boundary + url, close);
    AppendAssociative(front, boundary, url);
  }

  /** The part of the string from the boundary marker on. */
  lemma ReassembleTail(link: string, b: int, c: int, boundary: string, close: string)
    requires |boundary| == 2 && |close| == 1
    requires 0 <= b && b + 2 <= c < |link|
    requires OccursAt(link, boundary, b) && OccursAt(link, close, c)
    ensures link[b..] == boundary + link[b + 2..c] + close + link[c + 1..]
  {
    PeelAt(link, c, c + 1, close);
    PeelAt(link, b + 2, c, link[b + 2..c]);
    PeelAt(link, b, b + 2, boundary);
    AppendAssociative(link[b + 2..c], close, link[c + 1..]);
    AppendAssociative(boundary, link[b + 2..c] + close, link[c + 1..]);
    AppendAssociative(boundary, link[b + 2..c], close);
  }

  /** Conversely, a non-empty URL is only ever produced by such a split. */
  lemma SplitOfParse(link: string, title: string, url: string)
    requires ParseMarkdownLink(link) == Done(Link(title, url)) && url != ""
    ensures exists pre, post :: MarkdownSplit(link, pre, title, url, post)
  {
    var o, b, c := ParseIndexes(link);
    SplitAt(link, o, b, c);
  }

  /** Cutting a string at its first "[", its last "](" and its last ")",
      in that order, is a split. */
  lemma SplitAt(link: string, o: int, b: int, c: int)
    requires 0 <= o < b && b + 2 <= c < |link|
    requires OccursAt(link, "[", o) && forall k :: 0 <= k < o ==> !OccursAt(link, "[", k)
    requires OccursAt(link, "](", b) && forall k :: b < k ==> !OccursAt(link, "](", k)
    requires OccursAt(link, ")", c) && forall k :: c < k ==> !OccursAt(link, ")", k)
    ensures MarkdownSplit(link, link[..o], link[o + 1..b], link[b + 2..c], link[c + 1..])
  {
    Reassemble(link, o, b, c, "[", "](", ")");
    var pre, url, post := link[..o], link[b + 2..c], link[c + 1..];
    assert link[b + 2..] == url + ")" + post;
    AbsentFromPart(link, "[", 0, pre);
    AbsentFromPart(link, "](", b + 2, url + ")" + post);
    AbsentFromPart(link, ")", c + 1, post);
  }

  /** A URL without "](" cannot form one with the closing parenthesis. */
  lemma NoBoundaryAcrossParen(url: string)
    requires !Contains(url, "](")
    ensures !Contains(url + ")", "](")
  {
    var t := url + ")";
    AbsentFromPart(t, "](", 0, url);
    forall k | 0 <= k <= |t| - 2 ensures !OccursAt(t, "](", k) {
      if k + 2 > |url| {
        assert t[k + 1] == ')';
      }
    }
  }

  /** Writing a link as markdown and parsing it gives the link back, even
      when the title or the URL holds brackets or parentheses, as long as the
      URL does not hold "](". */
  lemma ParseRoundTrip(title: string, url: string)
    requires !Contains(url, "](")
    ensures ParseMarkdownLink("[" + title + "](" + url + ")") == Done(Link(title, url))
  {
    NoBoundaryAcrossParen(url);
    assert "[" + title + "](" + url + ")" == "" + "[" + title + "](" + url + ")" + "";
    assert url + ")" + "" == url + ")";
    ParseOfSplit("[" + title + "](" + url + ")", "", title, url, "");
  }

  /** The link of the Metroid Fusion guide from the Go test, whose title and
      URL both hold parentheses. */
  lemma ParseParenthesesExample()
    ensures var title := "F) Sector 6 (NOC) - Metroid Fusion Guide - IGN";
            var url := "https://www." + "ign.com/" + "wikis/" + "metroid-" + "fusion/F)_" + "Sector_6_"
                       + "(NOC)";
            ParseMarkdownLink("[" + title + "](" + url + ")") == Done(Link(title, url))
  {
    IgnUrlHoldsNoBracket();
    var url := "https://www." + "ign.com/" + "wikis/" + "metroid-" + "fusion/F)_" + "Sector_6_"
               + "(NOC)";
    FirstCharAbsent(url, "](");
    ParseRoundTrip("F) Sector 6 (NOC) - Metroid Fusion Guide - IGN", url);
  }

  lemma IgnUrlHoldsNoBracket()
    ensures ']' !in "https://www." + "ign.com/" + "wikis/" + "metroid-" + "fusion/F)_" + "Sector_6_"
                    + "(NOC)"
  {
  }

  /** The Go test's link with a query string. */
  lemma ParseQueryExample()
    ensures var title := "Ankify: convert notes to Anki cards";
            var url := "https://" + "ankify." + "krxiang.com/" + "?utm_source=" + "hackernewsle"
                       + "tter&utm_" + "medium=" + "email&utm_" + "term=show_hn";
            ParseMarkdownLink("[" + title + "](" + url + ")") == Done(Link(title, url))
  {
    AnkifyUrlHoldsNoBracket();
    var url := "https://" + "ankify." + "krxiang.com/" + "?utm_source=" + "hackernewsle"
               + "tter&utm_" + "medium=" + "email&utm_" + "term=show_hn";
    FirstCharAbsent(url, "](");
    ParseRoundTrip("Ankify: convert notes to Anki cards", url);
  }

  lemma AnkifyUrlHoldsNoBracket()
    ensures ']' !in "https://" + "ankify." + "krxiang.com/" + "?utm_source=" + "hackernewsle"
                    + "tter&utm_" + "medium=" + "email&utm_" + "term=show_hn"
  {
  }

  /** The Go test's link whose title holds curly quotes, parentheses and a
      "|", and whose URL holds a fragment. */
  lemma ParseFragmentExample()
    ensures var title := "“What's Next? (Black & White)” graphic tee, pullover hoodie, tank, and pullover crewneck by The West Wing Weekly. | Cotton Bureau";
            var url := "https://" + "cottonbureau" + ".com/" + "products/" + "whats-next-"
                       + "black-white#" + "/4751515/" + "tee-men-" + "standard-" + "tee-vintage-"
                       + "black-tri-" + "blend-s";
            ParseMarkdownLink("[" + title + "](" + url + ")") == Done(Link(title, url))
  {
    CottonBureauUrlHoldsNoBracket();
    var url := "https://" + "cottonbureau" + ".com/" + "products/" + "whats-next-"
               + "black-white#" + "/4751515/" + "tee-men-" + "standard-" + "tee-vintage-"
               + "black-tri-" + "blend-s";
    FirstCharAbsent(url, "](");
    ParseRoundTrip("“What's Next? (Black & White)” graphic tee, pullover hoodie, tank, and pullover crewneck by The West Wing Weekly. | Cotton Bureau", url);
  }

  lemma CottonBureauUrlHoldsNoBracket()
    ensures ']' !in "https://" + "cottonbureau" + ".com/" + "products/" + "whats-next-"
                    + "black-white#" + "/4751515/" + "tee-men-" + "standard-" + "tee-vintage-"
                    + "black-tri-" + "blend-s"
  {
  }

  /** The Go test's link whose title holds parentheses. */
  lemma ParseConcertExample()
    ensures var title := "Little Shop of Horrors: Tiny Desk (Home) Concert - YouTube";
            var url := "https://m." + "youtube.com/" + "watch?v=" + "ymqKPz5kRXE";
            ParseMarkdownLink("[" + title + "](" + url + ")") == Done(Link(title, url))
  {
    YouTubeUrlHoldsNoBracket();
    var url := "https://m." + "youtube.com/" + "watch?v=" + "ymqKPz5kRXE";
    FirstCharAbsent(url, "](");
    ParseRoundTrip("Little Shop of Horrors: Tiny Desk (Home) Concert - YouTube", url);
  }

  lemma YouTubeUrlHoldsNoBracket()
    ensures ']' !in "https://m." + "youtube.com/" + "watch?v=" + "ymqKPz5kRXE"
  {
  }

  /** The Go test's link whose title ends in a parenthesis. */
  lemma ParseThreadExample()
    ensures var title := "Life is too short for dated CLI tools (Twitter thread)";
            var url := "https://" + "mobile." + "twitter.com/" + "amilajack/" + "status/"
                       + "147932864982" + "0000256";
            ParseMarkdownLink("[" + title + "](" + url + ")") == Done(Link(title, url))
  {
    TwitterUrlHoldsNoBracket();
    var url := "https://" + "mobile." + "twitter.com/" + "amilajack/" + "status/"
               + "147932864982" + "0000256";
    FirstCharAbsent(url, "](");
    ParseRoundTrip("Life is too short for dated CLI tools (Twitter thread)", url);
  }

  lemma TwitterUrlHoldsNoBracket()
    ensures ']' !in "https://" + "mobile." + "twitter.com/" + "amilajack/" + "status/"
                    + "147932864982" + "0000256"
  {
  }

  /** A "](" before the first "[" makes Go panic. */
  lemma ParsePanicExample()
    ensures ParseMarkdownLink("](x)[") == Panic
  {
    var link := "](x)[";
    assert OccursAt(link, "](", 0) && OccursAt(link, ")", 3) && OccursAt(link, "[", 4);
    assert !OccursAt(link, "[", 0) && !OccursAt(link, "[", 1) && !OccursAt(link, "[", 2)
        && !OccursAt(link, "[", 3);
    assert !OccursAt(link, "](", 1) && !OccursAt(link, "](", 2) && !OccursAt(link, "](", 3);
    assert !OccursAt(link, ")", 4);
  }

  /** A list line whose summary starts with "[x]" or "[X]" is checked off. */
  predicate IsChecked(summary: string) {
    HasPrefix(summary, "[x]") || HasPrefix(summary, "[X]")
  }

  /** The length of the "[ ] " marker that is cut from an open line. */
  const OpenMarkerLength: nat := |"[ ] "|

  /** What one list line contributes: nothing when it is checked off; the
      link written after its first four characters when that link's URL is
      not empty; nothing otherwise (the line is only logged). A summary of
      fewer than four characters makes Go's slice expression panic. */
  function TodoOfLine(summary: string): (r: Outcome<seq<Link>>)
    ensures IsChecked(summary) ==> r == Done([])
    ensures r.Done? ==> |r.value| <= 1 && forall l <- r.value :: l.url != "" && !Contains(l.url, "](")
    ensures !IsChecked(summary) && |summary| < OpenMarkerLength ==> r == Panic
    ensures !IsChecked(summary) && |summary| >= OpenMarkerLength ==>
              var parsed := ParseMarkdownLink(summary[OpenMarkerLength..]);
              (r.Panic? <==> parsed.Panic?)
              && (parsed.Done? && parsed.value.url != "" ==> r == Done([parsed.value]))
  {
    if IsChecked(summary) then Done([])
    else if |summary| < OpenMarkerLength then Panic
    else match ParseMarkdownLink(summary[OpenMarkerLength..])
      case Panic => Panic
      case Done(link) =>
        ParsedUrlNoBoundary(summary[OpenMarkerLength..]);
        if link.url != "" then Done([link]) else Done([])
  }

  /** The links of a sequence of list lines, in line order. */
  function TodosOfLines(lines: seq<string>): (r: Outcome<seq<Link>>)
    ensures r.Done? ==> |r.value| <= |lines|
    ensures r.Done? ==> forall l <- r.value :: l.url != "" && !Contains(l.url, "](")
  {
    if lines == [] then Done([])
    else Then(TodosOfLines(lines[..|lines| - 1]), TodoOfLine(lines[|lines| - 1]))
  }

  lemma TodosOfLinesSnoc(lines: seq<string>, line: string)
    ensures TodosOfLines(lines + [line]) == Then(TodosOfLines(lines), TodoOfLine(line))
  {
    assert (lines + [line])[..|lines|] == lines;
  }

  /** The links of two runs of lines are the links of the first run followed
      by the links of the second; a panic in either is a panic of the whole. */
  lemma {:induction false} TodosOfLinesAppend(a: seq<string>, b: seq<string>)
    ensures TodosOfLines(a + b) == Then(TodosOfLines(a), TodosOfLines(b))
  {
    if b == [] {
      assert a + b == a;
      ThenNothing(TodosOfLines(a));
    } else {
      var front, last := b[..|b| - 1], b[|b| - 1];
      assert a + b == (a + front) + [last];
      assert b == front + [last];
      TodosOfLinesSnoc(a + front, last);
      TodosOfLinesSnoc(front, last);
      TodosOfLinesAppend(a, front);
      ThenAssociative(TodosOfLines(a), TodosOfLines(front), TodoOfLine(last));
    }
  }

  /** A checked-off line can be removed without changing the result. */
  lemma CheckedLineIgnored(before: seq<string>, line: string, after: seq<string>)
    requires IsChecked(line)
    ensures TodosOfLines(before + [line] + after) == TodosOfLines(before + after)
  {
    TodosOfLinesAppend(before + [line], after);
    TodosOfLinesSnoc(before, line);
    TodosOfLinesAppend(before, after);
    ThenNothing(TodosOfLines(before));
  }

  /** Every link produced comes from an open line of at least four
      characters, as the link written after its "[ ] " marker. */
  lemma {:induction false} TodosComeFromLines(lines: seq<string>, link: Link)
    requires TodosOfLines(lines).Done? && link in TodosOfLines(lines).value
    ensures exists i :: 0 <= i < |lines| && !IsChecked(lines[i]) && |lines[i]| >= OpenMarkerLength
              && ParseMarkdownLink(lines[i][OpenMarkerLength..]) == Done(link)
  {
    var front, last := lines[..|lines| - 1], lines[|lines| - 1];
    if link in TodosOfLines(front).value {
      TodosComeFromLines(front, link);
      var i :| 0 <= i < |front| && !IsChecked(front[i]) && |front[i]| >= OpenMarkerLength
               && ParseMarkdownLink(front[i][OpenMarkerLength..]) == Done(link);
      assert lines[i] == front[i];
    } else {
      assert link in TodoOfLine(last).value;
      assert lines[|lines| - 1] == last;
    }
  }

  /** Conversely, every open line of at least four characters whose link
      has a non-empty URL gives that link, unless some line panics. */
  lemma {:induction false} OpenLineKept(lines: seq<string>, i: int)
    requires 0 <= i < |lines| && !IsChecked(lines[i]) && |lines[i]| >= OpenMarkerLength
    requires ParseMarkdownLink(lines[i][OpenMarkerLength..]).Done?
    requires ParseMarkdownLink(lines[i][OpenMarkerLength..]).value.url != ""
    requires TodosOfLines(lines).Done?
    ensures ParseMarkdownLink(lines[i][OpenMarkerLength..]).value in TodosOfLines(lines).value
  {
    var front := lines[..|lines| - 1];
    if i < |lines| - 1 {
      assert front[i] == lines[i];
      OpenLineKept(front, i);
    }
  }

  /** The changelog library: the summaries of the list lines of each version
      section of a markdown body, in document order. It is an input of the
      model. */
  type ChangelogReader = string -> seq<seq<string>>

  /** All lines of all sections, section by section. */
  function Flatten(sections: seq<seq<string>>): seq<string> {
    if sections == [] then []
    else Flatten(sections[..|sections| - 1]) + sections[|sections| - 1]
  }

  lemma {:induction false} FlattenAppend(a: seq<seq<string>>, b: seq<seq<string>>)
    ensures Flatten(a + b) == Flatten(a) + Flatten(b)
  {
    if b == [] {
      assert a + b == a;
    } else {
      assert (a + b)[..|a + b| - 1] == a + b[..|b| - 1];
      FlattenAppend(a, b[..|b| - 1]);
    }
  }

  /** The links of a markdown body: the links of all its list lines. */
  function TodosOfBody(body: string, sections: ChangelogReader): Outcome<seq<Link>> {
    TodosOfLines(Flatten(sections(body)))
  }

  /** A panic in the first sections is a panic of the whole body. */
  lemma PanicInFirstSections(sections: seq<seq<string>>, m: int)
    requires 0 <= m <= |sections| && TodosOfLines(Flatten(sections[..m])).Panic?
    ensures TodosOfLines(Flatten(sections)).Panic?
  {
    assert sections == sections[..m] + sections[m..];
    FlattenAppend(sections[..m], sections[m..]);
    TodosOfLinesAppend(Flatten(sections[..m]), Flatten(sections[m..]));
  }

  /** A panic on some of the first lines is a panic of all of them. */
  lemma PanicInPrefix(lines: seq<string>, j: int)
    requires 0 <= j < |lines| && TodosOfLines(lines[..j + 1]).Panic?
    ensures TodosOfLines(lines).Panic?
  {
    assert lines == lines[..j + 1] + lines[j + 1..];
    TodosOfLinesAppend(lines[..j + 1], lines[j + 1..]);
  }

  /** extractLinkedTodosFromMarkdown: walks the list lines of every section
      and appends a new radar item for each open line with a link. The error
      result of the Go function only reports a failure of the changelog
      library, which is not modelled, so it is left out. */
  method ExtractLinkedTodosFromMarkdown(body: string, sections: ChangelogReader)
    returns (r: Outcome<seq<RadarItem>>)
    ensures r.Panic? <==> TodosOfBody(body, sections).Panic?
    ensures r.Done? ==> LinksOf(r.value) == TodosOfBody(body, sections).value
    ensures r.Done? ==> forall item <- r.value :: fresh(item) && item.parsedURL == None
  {
    var versions := sections(body);
    var items: seq<RadarItem> := [];
    var i := 0;
    while i < |versions|
      invariant 0 <= i <= |versions|
      invariant TodosOfLines(Flatten(versions[..i])) == Done(LinksOf(items))
      invariant forall item <- items :: fresh(item) && item.parsedURL == None
    {
      NextSection(versions, i);
      TodosOfLinesAppend(Flatten(versions[..i]), versions[i]);
      var more := AppendLinkedTodos(items, versions[i]);
      if more.Panic? {
        PanicInFirstSections(versions, i + 1);
        return Panic;
      }
      items := more.value;
      i := i + 1;
    }
    assert versions[..|versions|] == versions;
    return Done(items);
  }

  /** The inner loop of extractLinkedTodosFromMarkdown over the lines of one
      section: appends an item for each open line with a link to `items`. */
  method AppendLinkedTodos(items: seq<RadarItem>, history: seq<string>)
    returns (r: Outcome<seq<RadarItem>>)
    ensures r.Panic? <==> TodosOfLines(history).Panic?
    ensures r.Done? ==> LinksOf(r.value) == LinksOf(items) + TodosOfLines(history).value
    ensures r.Done? ==> forall item <- r.value :: item in items || (fresh(item) && item.parsedURL == None)
  {
    var acc := items;
    var j := 0;
    while j < |history|
      invariant 0 <= j <= |history|
      invariant TodosOfLines(history[..j]).Done?
      invariant LinksOf(acc) == LinksOf(items) + TodosOfLines(history[..j]).value
      invariant forall item <- acc :: item in items || (fresh(item) && item.parsedURL == None)
    {
      var summary := history[j];
      assert history[..j + 1] == history[..j] + [summary];
      TodosOfLinesSnoc(history[..j], summary);
      var next := AppendTodoOfLine(acc, summary);
      if next.Panic? {
        PanicInPrefix(history, j);
        return Panic;
      }
      acc := next.value;
      j := j + 1;
    }
    assert history[..|history|] == history;
    return Done(acc);
  }

  /** The body of the inner loop of extractLinkedTodosFromMarkdown for one
      line: skip a checked-off line, cut the "[ ] " marker, parse the link
      and append an item when its URL is not empty. */
  method AppendTodoOfLine(items: seq<RadarItem>, summary: string) returns (r: Outcome<seq<RadarItem>>)
    ensures r.Panic? <==> TodoOfLine(summary).Panic?
    ensures r.Done? ==> LinksOf(r.value) == LinksOf(items) + TodoOfLine(summary).value
    ensures r.Done? ==> forall item <- r.value :: item in items || (fresh(item) && item.parsedURL == None)
  {
    if IsChecked(summary) {
      assert LinksOf(items) + [] == LinksOf(items);
      return Done(items);
    }
    if |summary| < OpenMarkerLength {
      return Panic;
    }
    var parsed := ParseMarkdownLink(summary[OpenMarkerLength..]);
    if parsed.Panic? {
      return Panic;
    }
    var title, url := parsed.value.title, parsed.value.url;
    if url != "" {
      var item := new RadarItem(title, url);
      LinksOfSnoc(items, item);
      return Done(items + [item]);
    }
    assert LinksOf(items) + [] == LinksOf(items);
    return Done(items);
  }

  lemma LinksOfSnoc(items: seq<RadarItem>, item: RadarItem)
    ensures LinksOf(items + [item]) == LinksOf(items) + [Link(item.title, item.url)]
  {
    MapAppend(LinkOf, items, [item]);
    assert Map(LinkOf, [item]) == [LinkOf(item)];
  }

  lemma NextSection(sections: seq<seq<string>>, i: int)
    requires 0 <= i < |sections|
    ensures Flatten(sections[..i + 1]) == Flatten(sections[..i]) + sections[i]
  {
    assert sections[..i + 1][..i] == sections[..i];
  }

  /** The content types whose pages are scanned for a title. */
  const ParsableContentTypes: seq<string> := ["text/html", "text/xhtml", "text/xml"]

  /** The path extensions of pages that are scanned for a title when the
      response has no content type. */
  const ParsableExtensions: set<string> := {"", ".html", ".xhtml", ".htm"}

  /** path.Ext: the part of the last path element from its last "." on, or
      "" when that element has no ".". `scanned` counts the characters already
      looked at from the end. */
  function ExtScan(path: string, scanned: nat): (ext: string)
    requires scanned <= |path|
    requires '/' !in path[|path| - scanned..] && '.' !in path[|path| - scanned..]
    ensures ext == "" || (HasSuffix(path, ext) && ext[0] == '.' && '.' !in ext[1..] && '/' !in ext)
    ensures ext == "" <==> forall k :: 0 <= k < |path| && '/' !in path[k..] ==> path[k] != '.'
    decreases |path| - scanned
  {
    if scanned == |path| then ""
    else
      var i := |path| - scanned - 1;
      if path[i] == '/' then
        assert forall k :: 0 <= k <= i ==> path[i] in path[k..];
        ""
      else if path[i] == '.' then path[i..]
      else
        assert path[i..] == [path[i]] + path[i + 1..];
        ExtScan(path, scanned + 1)
  }

  function Ext(path: string): (ext: string)
    ensures ext == "" || (HasSuffix(path, ext) && ext[0] == '.' && '.' !in ext[1..] && '/' !in ext)
    ensures ext == "" <==> forall k :: 0 <= k < |path| && '/' !in path[k..] ==> path[k] != '.'
  {
    ExtScan(path, 0)
  }

  /** What isBinaryResource decides: a response with a content type is
      binary unless the type names HTML, XHTML or XML; one without is binary
      unless the URL path has no extension or an HTML one. */
  predicate BinaryResource(contentType: string, urlPath: string) {
    if contentType != "" then
      !(Contains(contentType, "text/html") || Contains(contentType, "text/xhtml")
        || Contains(contentType, "text/xml"))
    else
      Ext(urlPath) != "" && Ext(urlPath) != ".html" && Ext(urlPath) != ".xhtml"
      && Ext(urlPath) != ".htm"
  }

  /** isBinaryResource: the response's Content-Type header (empty when it is
      missing) and the URL's path decide whether the page is skipped. */
  method IsBinaryResource(contentType: string, urlPath: string) returns (binary: bool)
    ensures binary == BinaryResource(contentType, urlPath)
  {
    if contentType != "" {
      for n := 0 to |ParsableContentTypes|
        invariant forall k :: 0 <= k < n ==> !Contains(contentType, ParsableContentTypes[k])
      {
        if Contains(contentType, ParsableContentTypes[n]) {
          return false;
        }
      }
      assert ParsableContentTypes[0] == "text/html" && ParsableContentTypes[1] == "text/xhtml"
          && ParsableContentTypes[2] == "text/xml";
      return true;
    }
    var ext := Ext(urlPath);
    return ext !in ParsableExtensions;
  }

  /** A case of the Go test for isBinaryResource without a content type. */
  lemma PdfIsBinary()
    ensures BinaryResource("", "/hi.pdf")
  {
    assert ExtScan("/hi.pdf", 3) == ".pdf";
  }

  /** A case of the Go test for isBinaryResource without a content type. */
  lemma HtmlIsNotBinary()
    ensures !BinaryResource("", "/hi.html")
  {
    assert ExtScan("/hi.html", 4) == ".html";
  }

  /** The cases of the Go test for isBinaryResource with a content type. */
  lemma BinaryByContentTypeExamples()
    ensures !BinaryResource("text/html", "")
    ensures BinaryResource("text/plain", "")
  {
    assert OccursAt("text/html", "text/html", 0);
    var plain := "text/plain";
    assert !OccursAt(plain, "text/html", 0) by {
      assert plain[0..9][5] == 'p';
    }
    assert !OccursAt(plain, "text/html", 1) by {
      assert plain[1..10][0] == 'e';
    }
    assert !OccursAt(plain, "text/xhtml", 0) by {
      assert plain[0..10][5] == 'p';
    }
    assert !OccursAt(plain, "text/xml", 0) by {
      assert plain[0..8][5] == 'p';
    }
    assert !OccursAt(plain, "text/xml", 1) by {
      assert plain[1..9][0] == 'e';
    }
    assert !OccursAt(plain, "text/xml", 2) by {
      assert plain[2..10][0] == 'x';
    }
  }

  /** net.ParseIP followed by isPrivateIP: None when the host name is not an
      IP address, otherwise whether the address is in a private range. */
  type IpClassifier = string -> Option<bool>

  /** isPrivateHost: an IP address is private by its range; any other host
      name is private when it is "localhost" or ends in ".local" or
      ".localhost". */
  function IsPrivateHost(hostname: string, isPrivateIP: IpClassifier): (private: bool)
    ensures isPrivateIP(hostname).Some? ==> private == isPrivateIP(hostname).value
    ensures isPrivateIP(hostname).None? ==>
              (private <==> hostname == "localhost" || (exists name :: hostname == name + ".local")
                            || (exists name :: hostname == name + ".localhost"))
  {
    match isPrivateIP(hostname)
    case Some(p) => p
    case None =>
      HasSuffixIsEnding(hostname, ".local");
      HasSuffixIsEnding(hostname, ".localhost");
      hostname == "localhost" || HasSuffix(hostname, ".local") || HasSuffix(hostname, ".localhost")
  }

  /** Every name under a private host name is private too. */
  lemma PrivateNameSubdomain(sub: string, hostname: string, isPrivateIP: IpClassifier)
    requires isPrivateIP(hostname).None? && isPrivateIP(sub + "." + hostname).None?
    requires IsPrivateHost(hostname, isPrivateIP)
    ensures IsPrivateHost(sub + "." + hostname, isPrivateIP)
  {
    var name := sub + "." + hostname;
    if hostname == "localhost" {
      assert name[|name| - |".localhost"|..] == ".localhost";
    } else if HasSuffix(hostname, ".local") {
      SuffixOfExtension(sub + ".", hostname, ".local");
    } else {
      SuffixOfExtension(sub + ".", hostname, ".localhost");
    }
  }

  /** The test's "localhost" and names that only look local, none of which
      is an IP address; and two of the test's IP addresses, which the
      address classifier decides. */
  lemma PrivateNameExamples(isPrivateIP: IpClassifier)
    requires isPrivateIP("localhost").None? && isPrivateIP("printer.local").None?
    requires isPrivateIP("local").None? && isPrivateIP("localhost.example.com").None?
    requires isPrivateIP("127.0.0.1") == Some(true) && isPrivateIP("129.129.129.129") == Some(false)
    ensures IsPrivateHost("127.0.0.1", isPrivateIP)
    ensures !IsPrivateHost("129.129.129.129", isPrivateIP)
    ensures IsPrivateHost("localhost", isPrivateIP)
    ensures IsPrivateHost("printer.local", isPrivateIP)
    ensures !IsPrivateHost("local", isPrivateIP)
    ensures !IsPrivateHost("localhost.example.com", isPrivateIP)
  {
    assert "printer.local"[7..] == ".local";
    assert "localhost.example.com"[15..] != ".local";
    assert "localhost.example.com"[11..] != ".localhost";
  }
}

=== FILE: radar_item.dfy ===
/** Radar items and their ordering by host name (radar_item.go).

    A `RadarItem` keeps its title and URL, which the core never changes, and
    a memo of the parsed URL, which `GetHostname` fills in on first use. A
    `RadarItems` slice is an array of items; `sort.Stable` orders it in place
    through `Swap` and `Less`. */
module RadarItems {
  import opened Wrappers
  import opened Strings
  import opened Sorting

  /** The part of a parsed `*url.URL` that the core reads: its Hostname(). */
  datatype Url = Url(hostname: string)

  /** `url.Parse`, which lives outside the core: None when it reports an error. */
  type UrlParser = string -> Option<Url>

  /** The value of a radar item as the tests compare it and as the issue body
      shows it: its title (possibly empty) and its URL. */
  datatype Link = Link(title: string, url: string)

  /** The host name that `GetHostname` reports for `url`: the parsed URL's
      host name, or "" when the URL does not parse. */
  function Hostname(url: string, parse: UrlParser): string {
    match parse(url)
    case None => ""
    case Some(u) => u.hostname
  }

  class RadarItem {
    const title: string
    const url: string
    /** The memo of `url.Parse(url)`; None stands for Go's nil pointer. */
    var parsedURL: Option<Url>

    constructor (title: string, url: string)
      ensures this.title == title && this.url == url && parsedURL == None
    {
      this.title := title;
      this.url := url;
      parsedURL := None;
    }

    /** The memo, when set, is what `url.Parse` returns for the item's URL. */
    ghost predicate CacheValid(parse: UrlParser)
      reads this
    {
      parsedURL.Some? ==> parse(url) == parsedURL
    }

    /** Parses the URL on first use and keeps the result. A URL that fails to
        parse gives "" and leaves the memo empty, so the next call parses
        again; once set, the memo answers every later call. */
    method GetHostname(parse: UrlParser) returns (hostname: string)
      modifies this
      ensures old(parsedURL).Some? ==>
                parsedURL == old(parsedURL) && hostname == old(parsedURL).value.hostname
      ensures old(parsedURL).None? ==>
                parsedURL == parse(url) && hostname == Hostname(url, parse)
      ensures old(CacheValid(parse)) ==> CacheValid(parse) && hostname == Hostname(url, parse)
    {
      if parsedURL.None? {
        parsedURL := parse(url);
        if parsedURL.None? {
          return "";
        }
      }
      hostname := parsedURL.value.hostname;
    }
  }

  function LinkOf(item: RadarItem): Link {
    Link(item.title, item.url)
  }

  function LinksOf(items: seq<RadarItem>): seq<Link> {
    Map(LinkOf, items)
  }

  /** The sort key of an item: the host name of its URL. */
  function HostKey(parse: UrlParser): RadarItem -> string {
    (item: RadarItem) => Hostname(item.url, parse)
  }

  /** The same key, read off an item's value. */
  function LinkHostKey(parse: UrlParser): Link -> string {
    (link: Link) => Hostname(link.url, parse)
  }

  /** Ordering items and then taking their values is ordering the values. */
  lemma SortedLinks(items: seq<RadarItem>, parse: UrlParser)
    ensures LinksOf(StableSort(items, HostKey(parse)))
         == StableSort(LinksOf(items), LinkHostKey(parse))
  {
    StableSortMap(items, LinkOf, HostKey(parse), LinkHostKey(parse));
  }

  /** RadarItems.Swap: exchanges positions i and j and nothing else. */
  method Swap(a: array<RadarItem>, i: int, j: int)
    requires 0 <= i < a.Length && 0 <= j < a.Length
    modifies a
    ensures a[..] == old(a[..])[i := old(a[j])][j := old(a[i])]
    ensures multiset(a[..]) == multiset(old(a[..]))
  {
    a[i], a[j] := a[j], a[i];
  }

  /** RadarItems.Less: whether item i's host name sorts strictly before item
      j's. Only the two items' URL memos may change: each ends as what
      `url.Parse` gives for its URL, set now if it was empty. */
  method Less(a: array<RadarItem>, i: int, j: int, parse: UrlParser) returns (less: bool)
    requires 0 <= i < a.Length && 0 <= j < a.Length
    requires CachesValid(a[..], parse)
    modifies a[i], a[j]
    ensures less == StrLess(HostKey(parse)(a[i]), HostKey(parse)(a[j]))
    ensures CachesValid(a[..], parse)
    ensures a[i].parsedURL == parse(a[i].url) && a[j].parsedURL == parse(a[j].url)
  {
    assert a[i] in a[..] && a[j] in a[..];
    var hi := a[i].GetHostname(parse);
    var hj := a[j].GetHostname(parse);
    less := StrLess(hi, hj);
  }

  /** Every item's URL memo agrees with `parse`. */
  ghost predicate CachesValid(items: seq<RadarItem>, parse: UrlParser)
    reads items
  {
    forall item <- items :: item.CacheValid(parse)
  }

  /** sort.Stable(RadarItems(a)): orders the items by host name, keeping
      items with equal host names in their original order. Go's sort.Stable
      runs this insertion sort on blocks of 20 items and merges the blocks;
      the result of any stable sort is the same (Sorting.SortedStableUnique). */
  method SortStable(a: array<RadarItem>, parse: UrlParser)
    requires CachesValid(a[..], parse)
    modifies a, a[..]
    ensures a[..] == StableSort(old(a[..]), HostKey(parse))
    ensures CachesValid(a[..], parse)
  {
    var n := a.Length;
    var i := 1;
    while i < n
      invariant 1 <= i && (n == 0 || i <= n)
      invariant multiset(a[..]) == multiset(old(a[..]))
      invariant CachesValid(a[..], parse)
      invariant SameKeyOrder(a[..], old(a[..]), HostKey(parse))
      invariant SortedPrefix(a[..], HostKey(parse), i)
    {
      forall k | 0 <= k < n ensures a[k] in old(a[..]) {
        assert a[k] in multiset(a[..]);
      }
      ghost var before := a[..];
      SinkItem(a, i, parse);
      SameKeyOrderTransitive(a[..], before, old(a[..]), HostKey(parse));
      i := i + 1;
    }
    if n > 0 {
      SortedPrefixWhole(a[..], HostKey(parse));
    }
    IsStableSort(a[..], old(a[..]), HostKey(parse));
  }

  /** One pass of the inner loop of Go's insertionSort: while item j sorts
      strictly before item j-1, swap them, starting from j = i. Items 0..i-1
      are in order before; items 0..i are in order after. */
  method SinkItem(a: array<RadarItem>, i: int, parse: UrlParser)
    requires 0 < i < a.Length
    requires CachesValid(a[..], parse)
    requires SortedPrefix(a[..], HostKey(parse), i)
    modifies a, a[..]
    ensures multiset(a[..]) == multiset(old(a[..]))
    ensures SameKeyOrder(a[..], old(a[..]), HostKey(parse))
    ensures CachesValid(a[..], parse)
    ensures SortedPrefix(a[..], HostKey(parse), i + 1)
    ensures a[i + 1..] == old(a[i + 1..])
  {
    var j := i;
    var sinking := true;
    SinkStart(a[..], HostKey(parse), i);
    while sinking
      invariant 0 <= j <= i
      invariant multiset(a[..]) == multiset(old(a[..]))
      invariant CachesValid(a[..], parse)
      invariant SameKeyOrder(a[..], old(a[..]), HostKey(parse))
      invariant sinking ==> SunkTo(a[..], HostKey(parse), i, j)
      invariant !sinking ==> SortedPrefix(a[..], HostKey(parse), i + 1)
      invariant a[i + 1..] == old(a[i + 1..])
      decreases j, sinking
    {
      if j == 0 {
        SunkDone(a[..], HostKey(parse), i, j);
        sinking := false;
      } else {
        ghost var before := a[..];
        assert a[j] in multiset(a[..]) && a[j - 1] in multiset(a[..]);
        sinking := SinkOnce(a, i, j, parse);
        SameKeyOrderTransitive(a[..], before, old(a[..]), HostKey(parse));
        if sinking {
          j := j - 1;
        }
      }
    }
  }

  /** One step of the inner loop: `Less(j, j-1)` and, when it holds,
      `Swap(j, j-1)`. */
  method SinkOnce(a: array<RadarItem>, i: int, j: int, parse: UrlParser) returns (swapped: bool)
    requires 0 < j <= i < a.Length
    requires CachesValid(a[..], parse)
    requires SunkTo(a[..], HostKey(parse), i, j)
    modifies a, a[j], a[j - 1]
    ensures swapped == StrLess(HostKey(parse)(old(a[j])), HostKey(parse)(old(a[j - 1])))
    ensures swapped ==> a[..] == old(a[..])[j := old(a[j - 1])][j - 1 := old(a[j])]
    ensures !swapped ==> a[..] == old(a[..])
    ensures multiset(a[..]) == multiset(old(a[..]))
    ensures CachesValid(a[..], parse)
    ensures SameKeyOrder(a[..], old(a[..]), HostKey(parse))
    ensures swapped ==> SunkTo(a[..], HostKey(parse), i, j - 1)
    ensures !swapped ==> SortedPrefix(a[..], HostKey(parse), i + 1)
  {
    var key := HostKey(parse);
    ghost var s := a[..];
    swapped := Less(a, j, j - 1, parse);
    assert a[..] == s;
    if swapped {
      SinkStep(s, key, i, j);
      Swap(a, j, j - 1);
      CachesValidSwap(s, j, j - 1, parse);
    } else {
      NotLessIsGreaterEq(key(s[j]), key(s[j - 1]));
      SunkDone(s, key, i, j);
      SameKeyOrderReflexive(s, key);
    }
  }

  /** Exchanging two items keeps every memo valid. */
  lemma CachesValidSwap(s: seq<RadarItem>, i: int, j: int, parse: UrlParser)
    requires 0 <= i < |s| && 0 <= j < |s| && CachesValid(s, parse)
    ensures CachesValid(s[i := s[j]][j := s[i]], parse)
  {
    var t := s[i := s[j]][j := s[i]];
    forall k | 0 <= k < |t| ensures t[k].CacheValid(parse) {
      assert t[k] == s[k] || t[k] == s[i] || t[k] == s[j];
    }
  }

  /** Items 0..i-1 of `s` are in order of their keys. */
  ghost predicate SortedPrefix(s: seq<RadarItem>, key: RadarItem -> string, i: int) {
    forall k :: 0 < k < i && k < |s| ==> StrLessEq(key(s[k - 1]), key(s[k]))
  }

  lemma SortedPrefixWhole(s: seq<RadarItem>, key: RadarItem -> string)
    requires SortedPrefix(s, key, |s|)
    ensures SortedBy(s, key)
  {
    AdjacentSortedIsSorted(s, key);
  }

  /** While item i sinks to position j of `s`: items 0..i are in order except
      around position j, where s[j] sorts strictly before s[j+1] and s[j-1]
      is no later than s[j+1]. */
  ghost predicate SunkTo(s: seq<RadarItem>, key: RadarItem -> string, i: int, j: int)
    requires 0 <= j <= i < |s|
  {
    (forall k :: 0 < k <= i && k != j && k != j + 1 ==> StrLessEq(key(s[k - 1]), key(s[k])))
    && (0 < j < i ==> StrLessEq(key(s[j - 1]), key(s[j + 1])))
    && (j < i ==> StrLess(key(s[j]), key(s[j + 1])))
  }

  lemma SameKeyOrderReflexive(s: seq<RadarItem>, key: RadarItem -> string)
    ensures SameKeyOrder(s, s, key)
  {
  }

  lemma SinkStart(s: seq<RadarItem>, key: RadarItem -> string, i: int)
    requires 0 < i < |s| && SortedPrefix(s, key, i)
    ensures SunkTo(s, key, i, i)
  {
  }

  lemma SunkDone(s: seq<RadarItem>, key: RadarItem -> string, i: int, j: int)
    requires 0 <= j <= i < |s| && SunkTo(s, key, i, j)
    requires j == 0 || StrLessEq(key(s[j - 1]), key(s[j]))
    ensures SortedPrefix(s, key, i + 1)
  {
  }

  lemma SinkStep(s: seq<RadarItem>, key: RadarItem -> string, i: int, j: int)
    requires 0 < j <= i < |s| && SunkTo(s, key, i, j)
    requires StrLess(key(s[j]), key(s[j - 1]))
    ensures SunkTo(s[j := s[j - 1]][j - 1 := s[j]], key, i, j - 1)
    ensures SameKeyOrder(s[j := s[j - 1]][j - 1 := s[j]], s, key)
  {
    StrLessAsymmetric(key(s[j]), key(s[j - 1]));
    SwapNeighboursKeepsWithKey(s, j - 1, key);
  }
}

=== FILE: sorting.dfy ===
/** Stable ordering of a sequence by a string key, as `sort.Stable` over a
    `sort.Interface` whose `Less` compares keys with Go's `<`.

    `StableSort` is the reference definition (an insertion sort that puts an
    element before the elements with an equal key that follow it in the
    input). The lemmas show that it is sorted, a permutation and stable, and
    that these three facts determine the result, so any stable sort by the
    same key (in particular the in-place one in module RadarItems) yields it. */
module Sorting {
  import opened Strings

  function Map<A, B>(f: A -> B, s: seq<A>): (r: seq<B>)
    ensures |r| == |s| && forall i :: 0 <= i < |s| ==> r[i] == f(s[i])
  {
    seq(|s|, i requires 0 <= i < |s| => f(s[i]))
  }

  lemma MapAppend<A, B>(f: A -> B, s: seq<A>, t: seq<A>)
    ensures Map(f, s + t) == Map(f, s) + Map(f, t)
  {
  }

  /** Keys never decrease along `s`. */
  predicate SortedBy<T>(s: seq<T>, key: T -> string) {
    forall i, j :: 0 <= i < j < |s| ==> StrLessEq(key(s[i]), key(s[j]))
  }

  /** Keys never decrease from one element to the next. */
  predicate AdjacentSortedBy<T>(s: seq<T>, key: T -> string) {
    forall i :: 0 < i < |s| ==> StrLessEq(key(s[i - 1]), key(s[i]))
  }

  /** The elements of `s` whose key is `k`, in their order in `s`. Two
      sequences with the same `WithKey` for every `k` list equal-key
      elements in the same relative order. */
  function WithKey<T>(s: seq<T>, key: T -> string, k: string): seq<T>
  {
    if s == [] then []
    else (if key(s[0]) == k then [s[0]] else []) + WithKey(s[1..], key, k)
  }

  /** Inserts `x` in front of the first element whose key is not below its own. */
  function Insert<T>(x: T, s: seq<T>, key: T -> string): seq<T>
  {
    if s == [] || StrLessEq(key(x), key(s[0])) then [x] + s
    else [s[0]] + Insert(x, s[1..], key)
  }

  /** Reference stable sort of `s` by `key`. */
  function StableSort<T>(s: seq<T>, key: T -> string): seq<T>
  {
    if s == [] then [] else Insert(s[0], StableSort(s[1..], key), key)
  }

  lemma {:induction false} InsertPermutes<T>(x: T, s: seq<T>, key: T -> string)
    ensures multiset(Insert(x, s, key)) == multiset(s) + multiset{x}
  {
    if s != [] && !StrLessEq(key(x), key(s[0])) {
      InsertPermutes(x, s[1..], key);
      assert s == [s[0]] + s[1..];
    }
  }

  lemma {:induction false} InsertSorted<T>(x: T, s: seq<T>, key: T -> string)
    requires SortedBy(s, key)
    ensures SortedBy(Insert(x, s, key), key)
  {
    var r := Insert(x, s, key);
    if s == [] {
    } else if StrLessEq(key(x), key(s[0])) {
      forall i, j | 0 <= i < j < |r| ensures StrLessEq(key(r[i]), key(r[j])) {
        if i == 0 && j > 1 {
          StrLessEqTransitive(key(x), key(s[0]), key(s[j - 1]));
        }
      }
    } else {
      var t := Insert(x, s[1..], key);
      InsertSorted(x, s[1..], key);
      InsertPermutes(x, s[1..], key);
      NotLessIsGreaterEq(key(x), key(s[0]));
      forall j | 0 <= j < |t| ensures StrLessEq(key(s[0]), key(t[j])) {
        assert t[j] in multiset(t);
        if t[j] != x {
          assert t[j] in multiset(s[1..]);
          var m :| 0 <= m < |s[1..]| && s[1..][m] == t[j];
          assert s[1 + m] == t[j];
        }
      }
    }
  }

  lemma {:induction false} InsertWithKey<T>(x: T, s: seq<T>, key: T -> string, k: string)
    ensures WithKey(Insert(x, s, key), key, k)
         == (if key(x) == k then [x] else []) + WithKey(s, key, k)
  {
    var r := Insert(x, s, key);
    if s == [] || StrLessEq(key(x), key(s[0])) {
      assert r[1..] == s;
    } else {
      InsertWithKey(x, s[1..], key, k);
      assert r[1..] == Insert(x, s[1..], key);
      if key(x) == k {
        assert key(s[0]) != k;
      }
    }
  }

  /** The reference sort is ordered by key. */
  lemma {:induction false} StableSortSorted<T>(s: seq<T>, key: T -> string)
    ensures SortedBy(StableSort(s, key), key)
  {
    if s != [] {
      StableSortSorted(s[1..], key);
      InsertSorted(s[0], StableSort(s[1..], key), key);
    }
  }

  /** The reference sort is a permutation of its input. */
  lemma {:induction false} StableSortPermutes<T>(s: seq<T>, key: T -> string)
    ensures multiset(StableSort(s, key)) == multiset(s)
  {
    if s != [] {
      StableSortPermutes(s[1..], key);
      InsertPermutes(s[0], StableSort(s[1..], key), key);
      assert s == [s[0]] + s[1..];
    }
  }

  /** The reference sort is stable: for every key, the elements with that
      key come out in the order they went in. */
  lemma {:induction false} StableSortStable<T>(s: seq<T>, key: T -> string, k: string)
    ensures WithKey(StableSort(s, key), key, k) == WithKey(s, key, k)
  {
    if s != [] {
      StableSortStable(s[1..], key, k);
      InsertWithKey(s[0], StableSort(s[1..], key), key, k);
    }
  }

  lemma {:induction false} WithKeyWitness<T>(s: seq<T>, key: T -> string, k: string) returns (j: nat)
    requires WithKey(s, key, k) != []
    ensures j < |s| && key(s[j]) == k
  {
    if key(s[0]) == k {
      j := 0;
    } else {
      var j' := WithKeyWitness(s[1..], key, k);
      j := j' + 1;
    }
  }

  lemma WithKeyOfHead<T>(s: seq<T>, key: T -> string)
    requires s != []
    ensures WithKey(s, key, key(s[0])) != []
  {
  }

  /** Sortedness and stability determine the order completely: two sorted
      sequences that agree on `WithKey` for every key are equal. */
  lemma {:induction false} SortedStableUnique<T>(a: seq<T>, b: seq<T>, key: T -> string)
    requires SortedBy(a, key) && SortedBy(b, key)
    requires forall k :: WithKey(a, key, k) == WithKey(b, key, k)
    ensures a == b
    decreases |a|
  {
    if a == [] || b == [] {
      var c := if a == [] then b else a;
      if c != [] {
        WithKeyOfHead(c, key);
        assert false;
      }
    } else {
      var k0, k1 := key(a[0]), key(b[0]);
      assert WithKey(a, key, k0) != [];
      var jb := WithKeyWitness(b, key, k0);
      assert StrLessEq(k1, k0) by { if jb > 0 { assert StrLessEq(key(b[0]), key(b[jb])); } }
      assert WithKey(b, key, k1) != [];
      var ja := WithKeyWitness(a, key, k1);
      assert StrLessEq(k0, k1) by { if ja > 0 { assert StrLessEq(key(a[0]), key(a[ja])); } }
      StrLessEqAntisymmetric(k0, k1);
      assert WithKey(a, key, k0) == [a[0]] + WithKey(a[1..], key, k0);
      assert WithKey(b, key, k0) == [b[0]] + WithKey(b[1..], key, k0);
      assert a[0] == b[0] by {
        assert WithKey(a, key, k0)[0] == WithKey(b, key, k0)[0];
      }
      forall k ensures WithKey(a[1..], key, k) == WithKey(b[1..], key, k) {
        var ha, hb := WithKey(a, key, k), WithKey(b, key, k);
        assert ha == hb;
        if k == k0 {
          assert ha[1..] == WithKey(a[1..], key, k);
          assert hb[1..] == WithKey(b[1..], key, k);
        } else {
          assert key(a[0]) != k && key(b[0]) != k;
          assert ha == WithKey(a[1..], key, k) by {
            assert ha == [] + WithKey(a[1..], key, k);
          }
          assert hb == WithKey(b[1..], key, k) by {
            assert hb == [] + WithKey(b[1..], key, k);
          }
        }
      }
      SortedStableUnique(a[1..], b[1..], key);
      assert a == [a[0]] + a[1..] && b == [b[0]] + b[1..];
    }
  }

  /** `r` holds, for every key, the same items with that key in the same
      order as `s`. */
  ghost predicate SameKeyOrder<T>(r: seq<T>, s: seq<T>, key: T -> string) {
    forall k :: WithKey(r, key, k) == WithKey(s, key, k)
  }

  lemma SameKeyOrderTransitive<T>(r: seq<T>, s: seq<T>, t: seq<T>, key: T -> string)
    requires SameKeyOrder(r, s, key) && SameKeyOrder(s, t, key)
    ensures SameKeyOrder(r, t, key)
  {
  }

  /** What the in-place sort establishes is enough to conclude that it
      produced the reference sort of its input. */
  lemma IsStableSort<T>(r: seq<T>, s: seq<T>, key: T -> string)
    requires SortedBy(r, key)
    requires SameKeyOrder(r, s, key)
    ensures r == StableSort(s, key)
  {
    StableSortSorted(s, key);
    forall k ensures WithKey(r, key, k) == WithKey(StableSort(s, key), key, k) {
      StableSortStable(s, key, k);
    }
    SortedStableUnique(r, StableSort(s, key), key);
  }

  lemma {:induction false} AdjacentChain<T>(s: seq<T>, key: T -> string, i: nat, j: nat)
    requires AdjacentSortedBy(s, key) && i <= j < |s|
    ensures StrLessEq(key(s[i]), key(s[j]))
    decreases j - i
  {
    if i < j {
      AdjacentChain(s, key, i, j - 1);
      StrLessEqTransitive(key(s[i]), key(s[j - 1]), key(s[j]));
    }
  }

  lemma AdjacentSortedIsSorted<T>(s: seq<T>, key: T -> string)
    requires AdjacentSortedBy(s, key)
    ensures SortedBy(s, key)
  {
    forall i, j | 0 <= i < j < |s| ensures StrLessEq(key(s[i]), key(s[j])) {
      AdjacentChain(s, key, i, j);
    }
  }

  lemma {:induction false} WithKeyAppend<T>(p: seq<T>, q: seq<T>, key: T -> string, k: string)
    ensures WithKey(p + q, key, k) == WithKey(p, key, k) + WithKey(q, key, k)
  {
    if p != [] {
      WithKeyAppend(p[1..], q, key, k);
      assert (p + q)[0] == p[0] && (p + q)[1..] == p[1..] + q;
    } else {
      assert p + q == q;
    }
  }

  /** Exchanging two neighbours whose keys differ keeps every key's
      subsequence. */
  lemma SwapNeighboursKeepsWithKey<T>(s: seq<T>, i: nat, key: T -> string)
    requires i + 1 < |s| && key(s[i]) != key(s[i + 1])
    ensures SameKeyOrder(s[i + 1 := s[i]][i := s[i + 1]], s, key)
  {
    var t := s[i + 1 := s[i]][i := s[i + 1]];
    forall k ensures WithKey(t, key, k) == WithKey(s, key, k) {
      assert s == s[..i] + ([s[i], s[i + 1]] + s[i + 2..]);
      assert t == s[..i] + ([s[i + 1], s[i]] + s[i + 2..]);
      WithKeyAppend(s[..i], [s[i], s[i + 1]] + s[i + 2..], key, k);
      WithKeyAppend(s[..i], [s[i + 1], s[i]] + s[i + 2..], key, k);
      WithKeyAppend([s[i], s[i + 1]], s[i + 2..], key, k);
      WithKeyAppend([s[i + 1], s[i]], s[i + 2..], key, k);
      assert WithKey([s[i], s[i + 1]], key, k) == WithKey([s[i + 1], s[i]], key, k) by {
        assert [s[i], s[i + 1]][1..] == [s[i + 1]];
        assert [s[i + 1], s[i]][1..] == [s[i]];
      }
    }
  }

  lemma {:induction false} InsertMap<A, B>(x: A, s: seq<A>, f: A -> B, ka: A -> string, kb: B -> string)
    requires forall y :: ka(y) == kb(f(y))
    ensures Map(f, Insert(x, s, ka)) == Insert(f(x), Map(f, s), kb)
  {
    if s != [] {
      assert Map(f, s)[0] == f(s[0]) && Map(f, s)[1..] == Map(f, s[1..]);
      if !StrLessEq(ka(x), ka(s[0])) {
        InsertMap(x, s[1..], f, ka, kb);
        MapAppend(f, [s[0]], Insert(x, s[1..], ka));
      } else {
        MapAppend(f, [x], s);
      }
    }
  }

  /** Sorting commutes with a map that preserves keys: ordering the objects
      and then looking at their values is ordering the values. */
  lemma {:induction false} StableSortMap<A, B>(s: seq<A>, f: A -> B, ka: A -> string, kb: B -> string)
    requires forall y :: ka(y) == kb(f(y))
    ensures Map(f, StableSort(s, ka)) == StableSort(Map(f, s), kb)
  {
    if s != [] {
      StableSortMap(s[1..], f, ka, kb);
      InsertMap(s[0], StableSort(s[1..], ka), f, ka, kb);
      assert Map(f, s)[0] == f(s[0]) && Map(f, s)[1..] == Map(f, s[1..]);
    }
  }
}

=== FILE: strings.dfy ===
/** The string operations of Go's `strings` package that the radar core uses
    (Index, LastIndex, Contains, HasPrefix, HasSuffix) and Go's `<` on strings.

    Go strings are UTF-8 byte strings and its indexes are byte offsets; here a
    string is a sequence of Unicode scalar values. Every pattern the core
    searches for is ASCII, and an ASCII byte never occurs inside the encoding
    of another character, so the substrings cut at the returned indexes are
    the same either way. A cut at a fixed count, such as the four-character
    list marker in Parser.TodoOfLine, counts characters here and bytes in Go;
    the two agree only when the characters cut are ASCII. Byte-wise lexicographic order of UTF-8 strings is
    also the code-point lexicographic order used by `StrLess`. */
module Strings {

  /** `p` occurs in `s` starting at index `i`. */
  predicate OccursAt(s: string, p: string, i: int) {
    0 <= i && i + |p| <= |s| && s[i..i + |p|] == p
  }

  /** strings.Contains */
  predicate Contains(s: string, p: string) {
    exists i | 0 <= i <= |s| - |p| :: OccursAt(s, p, i)
  }

  /** strings.HasPrefix */
  predicate HasPrefix(s: string, p: string) {
    |p| <= |s| && s[..|p|] == p
  }

  /** strings.HasSuffix */
  predicate HasSuffix(s: string, p: string) {
    |p| <= |s| && s[|s| - |p|..] == p
  }

  /** The first occurrence of `p` at or after index `i`, or -1. */
  function IndexFrom(s: string, p: string, i: nat): (r: int)
    requires i <= |s|
    ensures r == -1 || (i <= r && OccursAt(s, p, r))
    ensures forall k :: i <= k && (r == -1 || k < r) ==> !OccursAt(s, p, k)
    decreases |s| - i
  {
    if i + |p| > |s| then -1
    else if s[i..i + |p|] == p then i
    else IndexFrom(s, p, i + 1)
  }

  /** strings.Index: the first occurrence of `p` in `s`, or -1. */
  function Index(s: string, p: string): (r: int)
    ensures r == -1 <==> !Contains(s, p)
    ensures r != -1 ==> OccursAt(s, p, r) && forall k :: 0 <= k < r ==> !OccursAt(s, p, k)
  {
    IndexFrom(s, p, 0)
  }

  /** The last occurrence of `p` starting strictly below index `i`, or -1. */
  function LastIndexBelow(s: string, p: string, i: int): (r: int)
    ensures r == -1 || (r < i && OccursAt(s, p, r))
    ensures forall k :: r < k < i ==> !OccursAt(s, p, k)
    decreases i
  {
    if i <= 0 then -1
    else if OccursAt(s, p, i - 1) then i - 1
    else LastIndexBelow(s, p, i - 1)
  }

  /** strings.LastIndex: the last occurrence of `p` in `s`, or -1. */
  function LastIndex(s: string, p: string): (r: int)
    ensures r == -1 <==> !Contains(s, p)
    ensures r != -1 ==> OccursAt(s, p, r) && forall k :: r < k ==> !OccursAt(s, p, k)
  {
    LastIndexBelow(s, p, |s| + 1)
  }

  /** The first occurrence is where strings.Index finds it. */
  lemma IndexIs(s: string, p: string, i: int)
    requires OccursAt(s, p, i) && forall k :: 0 <= k < i ==> !OccursAt(s, p, k)
    ensures Index(s, p) == i
  {
  }

  /** The last occurrence is where strings.LastIndex finds it. */
  lemma LastIndexIs(s: string, p: string, i: int)
    requires OccursAt(s, p, i) && forall k :: i < k ==> !OccursAt(s, p, k)
    ensures LastIndex(s, p) == i
  {
  }

  /** The text from i on is the piece from i to j followed by the rest. */
  lemma PeelAt(s: string, i: int, j: int, piece: string)
    requires 0 <= i <= j <= |s| && s[i..j] == piece
    ensures s[i..] == piece + s[j..]
  {
  }

  /** How a concatenation of three sequences is grouped does not matter. */
  lemma AppendAssociative<T>(a: seq<T>, b: seq<T>, c: seq<T>)
    ensures a + b + c == a + (b + c)
  {
  }

  /** A one-character pattern found right after a part `pre` without it is
      first found there. */
  lemma IndexAfterAbsent(s: string, p: string, pre: string)
    requires |p| == 1 && |pre| <= |s| && s[..|pre|] == pre
    requires OccursAt(s, p, |pre|) && !Contains(pre, p)
    ensures Index(s, p) == |pre|
  {
    AbsentFromPart(s, p, 0, pre);
    IndexIs(s, p, |pre|);
  }

  /** An occurrence with no other occurrence after it, up to a tail without
      the pattern, is the last one. */
  lemma LastIndexBeforeAbsent(s: string, p: string, i: int, off: int)
    requires OccursAt(s, p, i) && i < off <= |s|
    requires forall k :: i < k < off ==> !OccursAt(s, p, k)
    requires !Contains(s[off..], p)
    ensures LastIndex(s, p) == i
  {
    AbsentFromPart(s, p, off, s[off..]);
    LastIndexIs(s, p, i);
  }

  /** Go's `a < b` on strings: lexicographic order. */
  predicate StrLess(a: string, b: string) {
    if |b| == 0 then false
    else if |a| == 0 then true
    else if a[0] != b[0] then a[0] < b[0]
    else StrLess(a[1..], b[1..])
  }

  /** Go's `a <= b` on strings. */
  predicate StrLessEq(a: string, b: string) {
    a == b || StrLess(a, b)
  }

  lemma {:induction false} StrLessIrreflexive(a: string)
    ensures !StrLess(a, a)
  {
    if |a| > 0 {
      StrLessIrreflexive(a[1..]);
    }
  }

  lemma {:induction false} StrLessTransitive(a: string, b: string, c: string)
    requires StrLess(a, b) && StrLess(b, c)
    ensures StrLess(a, c)
  {
    if |a| > 0 && a[0] == b[0] && b[0] == c[0] {
      StrLessTransitive(a[1..], b[1..], c[1..]);
    }
  }

  /** Any two strings are ordered one way or the other, or are equal. */
  lemma {:induction false} StrLessTrichotomy(a: string, b: string)
    ensures a == b || StrLess(a, b) || StrLess(b, a)
  {
    if |a| > 0 && |b| > 0 && a[0] == b[0] {
      StrLessTrichotomy(a[1..], b[1..]);
      if a[1..] == b[1..] {
        assert a == [a[0]] + a[1..] && b == [b[0]] + b[1..];
      }
    }
  }

  lemma StrLessAsymmetric(a: string, b: string)
    requires StrLess(a, b)
    ensures !StrLess(b, a) && a != b
  {
    StrLessIrreflexive(a);
    if StrLess(b, a) {
      StrLessTransitive(a, b, a);
    }
  }

  /** `<` fails exactly when `>=` holds. */
  lemma NotLessIsGreaterEq(a: string, b: string)
    ensures !StrLess(a, b) <==> StrLessEq(b, a)
  {
    StrLessTrichotomy(a, b);
    StrLessIrreflexive(a);
    if StrLess(b, a) {
      StrLessAsymmetric(b, a);
    }
  }

  lemma StrLessEqTransitive(a: string, b: string, c: string)
    requires StrLessEq(a, b) && StrLessEq(b, c)
    ensures StrLessEq(a, c)
  {
    if a != b && b != c {
      StrLessTransitive(a, b, c);
    }
  }

  lemma StrLessEqAntisymmetric(a: string, b: string)
    requires StrLessEq(a, b) && StrLessEq(b, a)
    ensures a == b
  {
    if a != b {
      StrLessAsymmetric(a, b);
    }
  }

  /** An occurrence of `p` in `s` that lies inside the part `t` of `s`
      starting at `off` is an occurrence in `t`. */
  lemma OccursWithin(s: string, p: string, k: int, off: int, t: string)
    requires 0 <= off && off + |t| <= |s| && s[off..off + |t|] == t
    requires OccursAt(s, p, k) && off <= k && k + |p| <= off + |t|
    ensures Contains(t, p)
  {
    forall m | 0 <= m < |t| ensures t[m] == s[off + m] {
      assert s[off..off + |t|][m] == s[off + m];
    }
    assert t[k - off..k - off + |p|] == s[k..k + |p|];
    assert OccursAt(t, p, k - off);
  }

  /** An occurrence of `p` in the part `t` of `s` starting at `off` is an
      occurrence in `s`. */
  lemma OccursShifted(s: string, p: string, off: int, t: string, i: int)
    requires 0 <= off && off + |t| <= |s| && s[off..off + |t|] == t
    requires OccursAt(t, p, i)
    ensures OccursAt(s, p, off + i)
  {
    forall m | 0 <= m < |t| ensures t[m] == s[off + m] {
      assert s[off..off + |t|][m] == s[off + m];
    }
    assert s[off + i..off + i + |p|] == t[i..i + |p|];
  }

  /** `p` is absent from the part `t` of `s` starting at `off` exactly when
      no occurrence of `p` in `s` lies inside that part. */
  lemma AbsentFromPart(s: string, p: string, off: int, t: string)
    requires 0 <= off && off + |t| <= |s| && s[off..off + |t|] == t
    ensures !Contains(t, p) <==> forall k :: off <= k && k + |p| <= off + |t| ==> !OccursAt(s, p, k)
  {
    if Contains(t, p) {
      var i :| 0 <= i <= |t| - |p| && OccursAt(t, p, i);
      OccursShifted(s, p, off, t, i);
    }
    forall k | off <= k && k + |p| <= off + |t| && OccursAt(s, p, k) ensures Contains(t, p) {
      OccursWithin(s, p, k, off, t);
    }
  }

  /** A pattern whose first character does not occur in `s` is not in `s`. */
  lemma FirstCharAbsent(s: string, p: string)
    requires |p| > 0 && p[0] !in s
    ensures !Contains(s, p)
  {
  }

  /** A prefix stays a prefix when more is appended, and when the same
      text is put in front of both. */
  lemma PrefixGrows(s: string, p: string, more: string, front: string)
    requires HasPrefix(s, p)
    ensures HasPrefix(s + more, p) && HasPrefix(front + s, front + p)
  {
    assert (s + more)[..|p|] == s[..|p|];
    assert (front + s)[..|front + p|] == front + s[..|p|];
  }

  /** The last parts of a concatenation form a suffix of it. */
  lemma SuffixOfConcat(s: string, a: string, b: string, c: string)
    ensures HasSuffix(s + a + b + c, a + b + c)
  {
    var t := s + a + b + c;
    assert t == s + (a + b + c);
    assert t[|t| - |a + b + c|..] == a + b + c;
  }

  /** A suffix of `s` stays a suffix when `s` is extended on the left. */
  lemma SuffixOfExtension(prefix: string, s: string, p: string)
    requires HasSuffix(s, p)
    ensures HasSuffix(prefix + s, p)
  {
    var t := prefix + s;
    assert t[|t| - |p|..] == s[|s| - |p|..];
  }

  /** `s` has suffix `p` exactly when it is some string followed by `p`. */
  lemma HasSuffixIsEnding(s: string, p: string)
    ensures HasSuffix(s, p) <==> exists front :: s == front + p
  {
    if HasSuffix(s, p) {
      assert s == s[..|s| - |p|] + p;
    }
    if exists front :: s == front + p {
      var front :| s == front + p;
      assert s[|s| - |p|..] == p;
    }
  }
}

=== FILE: wrappers.dfy ===
/** Optional values and the outcome of Go code that can panic. */
module Wrappers {

  datatype Option<+T> = None | Some(value: T)

  /** The result of a computation in Go that either returns normally or
      panics (a slice expression with bounds out of range). A panic is not
      recovered anywhere in the radar core, so it ends the whole rotation. */
  datatype Outcome<+T> = Done(value: T) | Panic

  /** Runs `a`, then `b`, and concatenates what they produced; a panic in
      either is a panic of the whole. */
  function Then<T>(a: Outcome<seq<T>>, b: Outcome<seq<T>>): (r: Outcome<seq<T>>)
    ensures r.Done? <==> a.Done? && b.Done?
    ensures r.Done? ==> r.value == a.value + b.value
  {
    if a.Panic? || b.Panic? then Panic else Done(a.value + b.value)
  }

  /** Running something that produces nothing changes nothing. */
  lemma ThenNothing<T>(a: Outcome<seq<T>>)
    ensures Then(a, Done([])) == a && Then(Done([]), a) == a
  {
    if a.Done? {
      assert a.value + [] == a.value && [] + a.value == a.value;
    }
  }

  lemma ThenAssociative<T>(a: Outcome<seq<T>>, b: Outcome<seq<T>>, c: Outcome<seq<T>>)
    ensures Then(Then(a, b), c) == Then(a, Then(b, c))
  {
    if a.Done? && b.Done? && c.Done? {
      assert (a.value + b.value) + c.value == a.value + (b.value + c.value);
    }
  }
}
